=== FILE: README.md ===
# Maze Adventure: a Dafny model of the game core

Maze Adventure is a small tile-maze game. The player walks a token through a
grid of walls, paths, stars and a goal, using either the arrow keys or a webcam
hand gesture. This project models the parts of the game that are plain logic,
with no pygame, mediapipe or file system involved:

- **the hand-gesture direction estimator** (`HandController`). It keeps a
  window of the last five fingertip positions and averages them. The average
  then goes through a square dead zone around the frame centre, a
  dominant-axis choice with a 60 px threshold, and a 0.3 s debounce on
  direction changes. It returns a cardinal direction or neutral.
- **the maze grid** (`MazeModel`): star discovery, start lookup with the (1, 1)
  fallback, passability, tile lookup, goal test and one-shot star collection.
- **the maze file grouping** (`MazeLoader`): stripped lines are split into
  mazes at `#` lines, and blank lines are skipped.
- **player movement** (`PlayerModel`): a rate-limited step that must land on an
  enterable tile.
- **the score and level record** (`GameStateModel`): counters, the theme
  whitelist, the camera and help toggles, and the end flags.
- **the character-selection layout** (`CharacterLayout`): at most two columns
  of 100 px cards on a 135 px pitch, centred in the window.
- **the stand-alone script `game.py`** (`ScriptGame`). It keeps its state in
  globals and writes tile codes as literals. Its functions are modelled from
  its own code, and lemmas prove that they agree with the packaged versions.

`Config` holds the constants of `config.py` and `Common` the shared value
types. Everything is a pure function over immutable datatypes. The clock is
the parameter `now`, in seconds, and positions are integer pixels. The
smoothed position is an exact `real` mean.

A few facts about the code shape the model:

- `last_direction` starts at (0, 0) (controllers/hand_controller.py:11). The
  debounce can therefore compare a candidate against neutral before any
  direction has been confirmed.
- The frame centre is `(w // 2, h // 2)` (controllers/hand_controller.py:58),
  which floors for an odd frame size.
- The early return for a missing smoothed position
  (controllers/hand_controller.py:53-54) cannot fire. A sample has just been
  added, and a pair of numbers is always truthy. The model keeps the branch.

The script `game.py` repeats three pieces of the packaged code, and the same
members model both copies:

- The bodies of its estimator methods at `game.py:334-393` match
  `controllers/hand_controller.py:26-85`, with the gesture settings written as
  the literals 5, 60, 0.3 and 50, which are the configured values.
  `HandController.GetDirection` models `game.py:347-393` as well.
- `calculate_positions` at `game.py:78-99` matches `game/ui.py:279-300`.
- Its file grouping loop at `game.py:395-408` is the loop of
  `game/maze.py:84-94` without the `Maze` wrapper, which is
  `MazeLoader.Group`.

## Model

| member | source | states |
|---|---|---|
| `HandController.InitialIsWellFormed` | controllers/hand_controller.py:7-14 | a new controller has an empty history and a neutral last direction, which satisfies the estimator invariant |
| `HandController.AddPosition` | controllers/hand_controller.py:26-29 | the newest sample ends the history; the result is a suffix of the old history plus the sample; it grows by one below capacity and keeps its length at capacity, so it never exceeds five |
| `HandController.HistoryKeepsLastSamples` | controllers/hand_controller.py:26-29 | recording any stream of samples from a history within capacity leaves exactly the last (at most five) samples of the whole stream, in insertion order |
| `HandController.SmoothedPosition` | controllers/hand_controller.py:31-37 | no position iff the history is empty; otherwise each coordinate times the sample count equals the sum of the samples on that axis (the exact mean) |
| `HandController.SmoothedWithinBounds` | controllers/hand_controller.py:31-37 | the smoothed position lies inside the bounding box of the retained samples |
| `HandController.SmoothedConstant` | controllers/hand_controller.py:31-37 | a history of one repeated sample smooths to exactly that sample |
| `HandController.Candidate` | controllers/hand_controller.py:66-73 | the result is cardinal; it is horizontal iff abs(dx) > abs(dy) strictly and abs(dx) > 60; vertical iff abs(dx) <= abs(dy) and abs(dy) > 60 (ties go vertical); the sign follows dx or dy |
| `HandController.CandidateSymmetric` | controllers/hand_controller.py:66-73 | mirroring an offset axis mirrors the candidate on that axis |
| `HandController.GetDirection` | controllers/hand_controller.py:39-85 | with no hand it returns neutral and the state unchanged; otherwise the first hand's sample is recorded; the last direction and its time either stay as they were or become the returned non-neutral direction at `now`; returned and stored directions stay cardinal and the invariant is kept |
| `HandController.NoHandChangesNothing` | controllers/hand_controller.py:40-41 | no detection returns (0, 0) and leaves history, last direction and its time untouched |
| `HandController.OnlyFirstHandCounts` | controllers/hand_controller.py:45-50 | extra detected hands after the first do not change the result |
| `HandController.DeadZoneWins` | controllers/hand_controller.py:58-64 | when the n retained samples sum to within n times 50 px of n times the centre on both axes (the mean is strictly inside the zone), the result is neutral with the sample recorded and the debounce memory untouched, even within the hold time |
| `HandController.DebounceSuppresses` | controllers/hand_controller.py:75-77 | outside the dead zone, a candidate that differs from the last direction less than 0.3 s after it was confirmed re-emits the last direction and leaves it and its time unchanged, also for a neutral candidate |
| `HandController.DebouncePasses` | controllers/hand_controller.py:79-83 | when not suppressed, a non-neutral candidate is returned and stored with time `now`; a neutral candidate is returned with the debounce memory kept |
| `HandController.RunStaysCardinal` | controllers/hand_controller.py:66-83 | over any sequence of frames from a well-formed state, every returned direction is one of (0,0), (+-1,0), (0,+-1) and the state stays well-formed |
| `HandController.RunHistoryIsLastSamples` | controllers/hand_controller.py:39-50 | after any sequence of frames the history is the last (at most five) first-hand samples seen, in order; frames without a hand add nothing |
| `HandController.CentredHandIsNeutral` | controllers/hand_controller.py:58-64 | on a 640x480 frame a fingertip held at (320, 240) gives neutral |
| `HandController.HeldRightMovesRight` | controllers/hand_controller.py:66-83 | a fingertip held at (420, 240) outside the hold time gives (1, 0), which becomes the last direction at `now` |
| `HandController.JitterIsDebounced` | controllers/hand_controller.py:75-77 | within the hold time after (1, 0), a fingertip suggesting (0, 1) still yields (1, 0) |
| `MazeModel.CellsOf` | game/maze.py:9-15 | a cell is listed iff it exists and holds the tile; the list is strictly increasing in row-major order, so each cell appears once |
| `MazeModel.CellsOfCount` | game/maze.py:45-54 | the star list built by the scan is exactly as long as the star counter's count |
| `MazeModel.NewMaze` | game/maze.py:4-7 | a new maze keeps its grid and starts with every STAR cell, in row-major order, without duplicates |
| `MazeModel.StartPosition` | game/maze.py:17-22 | if some cell holds START, the result holds START and no START cell comes before it in row-major order; with no START cell it is (1, 1) |
| `MazeModel.GetTileType` | game/maze.py:31-34 | the cell's tile in range, WALL for any out-of-range coordinate |
| `MazeModel.CanMoveTo` | game/maze.py:24-29 | a cell that can be entered is in range and is neither WALL nor START |
| `MazeModel.CanMoveToIffEnterableTile` | game/maze.py:24-34 | a cell can be entered iff it is in `[0, len(row 0)) x [0, height)` and holds PATH, GOAL or STAR, iff the tile lookup reports an enterable tile |
| `MazeModel.IsGoalPosition` | game/maze.py:56-57 | true iff the coordinate is in range and holds GOAL |
| `MazeModel.RemoveFirst` | game/maze.py:38 | removes the first occurrence of the point and keeps the rest in order; the list is unchanged when the point is absent |
| `MazeModel.RemoveFirstMultiset` | game/maze.py:38 | removal takes exactly one copy of the point out of the list's multiset |
| `MazeModel.CollectStar` | game/maze.py:36-40 | succeeds iff a star is listed at (x, y); on success exactly that entry is removed, order kept and length down by one; otherwise nothing changes; the grid is never changed |
| `MazeModel.CollectIsOneShot` | game/maze.py:36-43 | on a duplicate-free star list, the first collection succeeds, `has_star_at` is then false, the list stays duplicate-free, and a second collection fails and changes nothing |
| `MazeModel.StarCountsTrack` | game/maze.py:45-54 | remaining and total star counts agree at construction; a successful collection lowers the remaining count by exactly one; the total never changes |
| `MazeModel.SizeBoundsPassableCells` | game/maze.py:59-63 | every enterable cell and every cell not read as WALL lies inside the reported width and height; inside them the tile lookup reads the grid; a grid without rows has width 0 |
| `MazeModel.EmptyMazeHasNoSize` | game/maze.py:59-63 | a maze without rows reports width 0 and height 0; a negative x on it is looked up without touching a row, reads as WALL and cannot be entered |
| `MazeModel.StarsCount` | game/maze.py:45-46 | the remaining count is 0 iff no cell still has a star listed |
| `MazeModel.TotalStarsCount` | game/maze.py:48-54 | the total is the number of STAR cells of the grid, collected or not |
| `MazeModel.FreshStarsAreStarTiles` | game/maze.py:42-43 | on a fresh maze, `has_star_at(x, y)` holds iff cell (x, y) holds STAR |
| `MazeLoader.Kind` | game/maze.py:85-91 | a stripped line is a separator iff it starts with `#`, blank iff it is empty, otherwise a row |
| `MazeLoader.Flush` | game/maze.py:87-88 | the collected maze is emitted iff it has at least one row |
| `MazeLoader.GroupFrom` | game/maze.py:84-94 | no empty maze is ever produced |
| `MazeLoader.GroupKeepsEveryRow` | game/maze.py:84-94 | concatenating the produced mazes gives every row line of the file, in file order |
| `MazeLoader.GroupWithoutSeparator` | game/maze.py:84-94 | lines without a `#` line form at most one maze, holding all their rows |
| `MazeLoader.GroupSplitsAtSeparator` | game/maze.py:86-89 | a `#` line closes the current maze: the lines before and after it are grouped independently and their mazes appear in file order |
| `MazeLoader.LoadMazes` | game/maze.py:78-94 | the loader loop yields one `Maze` per group, in order, each with at least one row and its star list built |
| `PlayerModel.NewPlayer` | game/player.py:4-7 | a new player stands at the given cell with move time 0 |
| `PlayerModel.SetPosition` | game/player.py:9-11 | setting the position keeps the last move time |
| `PlayerModel.SetThenGet` | game/player.py:9-14 | `set_position(x, y)` then `get_position()` gives (x, y); setting the current position changes nothing |
| `PlayerModel.RateLimitOpensOverTime` | game/player.py:16-18 | once a move is allowed it stays allowed at every later instant; a player that never moved may move iff more than `move_delay` seconds have passed since 0 |
| `PlayerModel.TryMove` | game/player.py:16-33 | the maze is needed only when the rate limit allows a move; the move succeeds iff more than `move_delay` has passed strictly and the target can be entered; on failure the player is unchanged; on success it stands at (x+dx, y+dy) with move time `now` |
| `PlayerModel.LandsOnEnterableTile` | game/player.py:27-29 | after a successful move the player is in range on PATH, GOAL or STAR |
| `PlayerModel.NoTwoMovesAtOnce` | game/player.py:16-18 | with a non-negative delay, a second move at the same instant is refused |
| `PlayerModel.MovesAreSpacedByConfiguredDelay` | game/game.py:153 | with the configured 0.2 s delay the game passes to `try_move`, every attempt up to 0.2 s after a successful move is refused |
| `PlayerModel.IsAtGoal` | game/player.py:35-36 | true iff the player's own cell is in range and holds GOAL |
| `PlayerModel.CollectStarAtPosition` | game/player.py:38-39 | collects iff a star is listed at exactly the player's cell; the first entry for that cell, and only it, leaves the list (one copy out of the multiset, order kept); otherwise the maze is unchanged; the grid is never changed |
| `PlayerModel.CollectAtPositionIsOneShot` | game/player.py:38-39 | on a duplicate-free star list, standing on a star collects it once; a second call from the same cell fails and changes nothing |
| `GameStateModel.AddScore` | game/game_state.py:15-16 | the score grows by the points and nothing else changes |
| `GameStateModel.CollectStar` | game/game_state.py:18-20 | one more star, 10 more points, nothing else changes |
| `GameStateModel.CompleteLevel` | game/game_state.py:22-25 | 50 more points, the next level, stars collected back to 0; the star total and everything else are kept |
| `GameStateModel.ChangeTheme` | game/game_state.py:27-31 | returns true and switches theme iff the name is a key of the theme table; otherwise returns false and changes nothing |
| `GameStateModel.CurrentThemeName` | game/game_state.py:33-34 | for a valid theme key, the display name stored under that key |
| `GameStateModel.ToggleCamera` | game/game_state.py:36-38 | flips the camera flag, returns the new value and changes nothing else |
| `GameStateModel.ToggleHelp` | game/game_state.py:40-42 | flips the help flag, returns the new value and changes nothing else |
| `GameStateModel.ToggleTwiceRestores` | game/game_state.py:36-42 | toggling either flag twice restores the original state |
| `GameStateModel.SetTotalStars` | game/game_state.py:44-45 | sets the star total and nothing else |
| `GameStateModel.NatToString` | game/game_state.py:47-48 | the decimal rendering is non-empty, made only of digits, and has no leading zero: it starts with 0 only when it is "0", which is the rendering of 0 |
| `GameStateModel.IntToString` | game/game_state.py:47-48 | as Python's `str`: it starts with a minus sign iff the integer is negative, the rest is a non-empty digit string without leading zeros, and there is no slash |
| `GameStateModel.ParseIntToString` | game/game_state.py:47-48 | reading an integer's decimal rendering back gives the integer |
| `GameStateModel.StarsProgress` | game/game_state.py:47-48 | the text "collected/total" determines both counters: splitting at the first slash and reading both parts gives them back |
| `GameStateModel.JoinRoundTrip` | game/game_state.py:47-48 | any two integers rendered and joined by a slash split and read back into the same two integers |
| `GameStateModel.ResetForNewLevel` | game/game_state.py:53-55 | stars collected 0 and the star total set, nothing else changed; the level then counts as star-complete iff the total is at most 0 |
| `GameStateModel.CollectStarsCount` | game/game_state.py:18-20 | k collections add k stars and k times 10 points and keep the total |
| `GameStateModel.CompletionIsStable` | game/game_state.py:50-51 | once `is_level_complete_stars` holds, collecting more stars keeps it true |
| `GameStateModel.StarsCompleteAfterAll` | game/game_state.py:50-51 | after a reset to t stars, `is_level_complete_stars` holds after k collections iff k >= t |
| `GameStateModel.QuitGame` | game/game_state.py:57-58 | clears only `game_running` |
| `GameStateModel.WinGame` | game/game_state.py:60-62 | sets `game_won`, clears `game_running`, changes nothing else |
| `GameStateModel.OperationsPreserveInvariants` | game/game_state.py:15-62 | from a valid state any sequence of methods keeps the theme a table key, and the score never decreases unless a negative amount is added explicitly |
| `GameStateModel.InitialIsValid` | game/game_state.py:4-13 | a fresh state has a valid theme, is running and is not won |
| `CharacterLayout.Columns` | game/ui.py:283 | one column for a single card, two otherwise |
| `CharacterLayout.Rows` | game/ui.py:284 | the fewest rows of `cols` cards that hold all n cards (`ceil(n / cols)`) |
| `CharacterLayout.CalculatePositions` | game/ui.py:279-300 | exactly n corners; card i sits at column i % cols and row i // cols of the 135 px grid, offset by the centred start |
| `CharacterLayout.AtMostTwoColumns` | game/ui.py:283-297 | every card starts at one of two x offsets, and a single card sits at the start corner |
| `CharacterLayout.CardsInsideBlock` | game/ui.py:283-297 | every card lies inside the block of `cols * 135 - 35` by `rows * 135 - 35` pixels |
| `CharacterLayout.CardsDoNotOverlap` | game/ui.py:292-297 | two different cards are at least one card width apart on some axis |
| `CharacterLayout.BlockIsCentred` | game/ui.py:285-290 | the left and right margins differ by at most one pixel, and so do the top and bottom ones once the 30 px shift is removed |
| `ScriptGame.SearchRow` | game.py:424-426 | the first column of the row holding 2, with none before it, or none at all |
| `ScriptGame.SearchFrom` | game.py:422-426 | the first cell holding 2 in row-major order from the given row on, or none |
| `ScriptGame.FindStart` | game.py:422-427 | when some cell holds 2, the result holds 2 and no cell holding 2 precedes it in row-major order; otherwise (1, 1) |
| `ScriptGame.FindStartAgrees` | game.py:422-427 | the script's early-return `find_start` equals the packaged start lookup on every grid |
| `ScriptGame.CountStars` | game.py:429-435 | the nested loops count exactly the tiles equal to 4, which is the length of the star list |
| `ScriptGame.HandleInput` | game.py:487-491 | dx is -1 iff LEFT, 1 iff RIGHT without LEFT, 0 iff neither; dy likewise for UP over DOWN |
| `ScriptGame.KeyboardCardinalIffOneAxis` | game.py:487-491 | the keyboard step is neutral or a single-axis unit step iff the held arrow keys are not on both axes |
| `ScriptGame.KeyboardCanGoDiagonal` | game.py:487-491 | LEFT with UP gives (-1, -1), which is not cardinal |
| `ScriptGame.CanMove` | game.py:493-494 | true iff the cell is in range and its tile is one of the PATH, GOAL and STAR codes |
| `ScriptGame.CanMoveAgrees` | game.py:493-494 | the script's passability test with tiles 1, 3, 4 equals the packaged `can_move_to` |
| `ScriptGame.CollectStarAt` | game.py:496-501 | a listed star is removed (one copy, length down by one), with one more star and 10 more points; otherwise nothing changes |
| `ScriptGame.CollectStarAgrees` | game.py:496-501 | the script's global collection removes the same entry as the maze's `collect_star` and scores as the state record's `collect_star` |
| `ScriptGame.ThemeForLevel` | game.py:513-514 | level i uses the theme key at position i % 4, always a table key |
| `ScriptGame.ThemesRotate` | game.py:513-516 | themes repeat every four levels, and any four consecutive levels use all four themes |
| `ScriptGame.NextMaze` | game.py:506-528 | when a maze follows: its index, grid, start cell and exactly its star cells in row-major order, with stars reset to 0, the total set to their number and its theme; after the last maze: no level and no change |
| `ScriptGame.GoalStep` | game.py:864-873 | on any tile but 3 nothing changes; on tile 3 the score gains 50; when a maze follows, the level is the next index with its grid, start cell and star cells, the star counters are 0 and its 4-tile count, and the theme is the next level's; after the last maze only the score changes and no level is returned |
| `ScriptGame.GoalBonusRepeatsAfterLastLevel` | game.py:864-881 | after the last maze the goal rule yields no level; a following frame in which the player still stands on tile 3 pays the bonus again, 100 points in two frames |
| `ScriptGame.FinishingGoalStep` | game.py:864-881 | the corrected goal rule: +50 on reaching the goal; the session ends iff no maze follows; an ended session never changes |
| `ScriptGame.FinishingGoalScoresOnce` | game.py:864-881 | with the corrected rule the last goal's bonus is paid exactly once, however many frames follow |
| `ScriptGame.RepeatFinished` | game.py:864-881 | an ended session is unchanged by any number of further frames |

## Left out

- Rendering, fonts, particles, the help and game-over screens, and image conversion. These are pygame side effects.
- The camera, mediapipe detection and OpenCV frame processing (`process_frame`, `get_hand_frame`, `CameraManager`). A detection is given as the list of fingertip pixel positions, one per hand.
- The float truncation that turns a normalised landmark into an integer pixel (`int(tip.x * width)`). The model receives integer pixels directly.
- Float rounding in the five-sample mean and in `ceil(n / cols)`. The model uses an exact `real` mean and `(n + cols - 1) / cols`.
- The wall clock. `time.time()` is the parameter `now`. `try_move` reads the clock twice; both readings are taken to be the same `now`.
- The asset manager, sounds, music and the random character choice. These are file system and pygame objects.
- `Maze.generate_item_positions`. It is random, and it reads an `items` entry that the theme loader never produces.
- The colour entries of the theme table. Only the keys and display names are modelled, because colours are drawing data.
- Opening `mazes.txt`, the built-in fallback maze when the file is missing, and `int()` parse failures. Parsing a row line is the parameter `parse`.
- The event loop and wiring in `game/game.py`, `main.py`, `game/__init__.py`, and the script's `main()` except the goal rule.
- Negative-index behaviour of `next_maze`. The level index is a `nat`, as the main loop only ever passes 0 or a previous result.
- Grids with an empty first row or ragged rows are allowed. Each lookup requires only what keeps its own indexing from raising. It needs a first row once `0 <= x` holds, because the range test reads `data[0]` only then. It also needs a long enough row when the cell is in range. `try_move` needs this only when the rate limit lets it reach the maze. Every maze the loader builds has a first row.

## Findings

| source | as written | input that shows it | evidently intended | confidence | as-written member | corrected member |
|---|---|---|---|---|---|---|
| game.py:864-881 | after the last maze, `next_maze` returns no level and the game-over screen returns, but nothing leaves `while True`; the next frame that reaches the goal test with the player still on tile 3 adds 50 points again (the move at 856-862 may step off first, and the help screen at 840-841 skips the test), and shows the game-over screen and calls `hands.close()` once more | the player standing on tile 3 of the last maze for two frames without moving, `help_on` false | pay the completion bonus once and end the session, as the packaged game does with `win_game` | not executed | `ScriptGame.GoalBonusRepeatsAfterLastLevel` | `ScriptGame.FinishingGoalScoresOnce` |

=== FILE: CharacterLayout.dfy ===
/**
 * Layout of the character-selection screen: `n` square cards of 100 px on a
 * grid of at most two columns with a 135 px pitch, centred in the window and
 * pushed 30 px down.
 */
module CharacterLayout {
  import opened Common
  import opened Config

  const ItemSize: int := 100
  const Spacing: int := 135

  /** `min(n, 2)` columns. */
  function Columns(n: nat): (c: int)
    requires n >= 1
    ensures 1 <= c <= 2 && c <= n
    ensures c == 2 <==> n >= 2
  {
    Min(n, 2)
  }

  /** `ceil(n / cols)` rows: the fewest rows that hold all `n` cards. */
  function Rows(n: nat): (r: int)
    requires n >= 1
    ensures r >= 1
    ensures r * Columns(n) >= n
    ensures (r - 1) * Columns(n) < n
  {
    (n + Columns(n) - 1) / Columns(n)
  }

  /** Width of the block of cards: the pitch times the columns, less one gap. */
  function TotalWidth(n: nat): int
    requires n >= 1
  {
    Columns(n) * Spacing - (Spacing - ItemSize)
  }

  function TotalHeight(n: nat): int
    requires n >= 1
  {
    Rows(n) * Spacing - (Spacing - ItemSize)
  }

  /** Python's `//` floors; so does Dafny's `/` for the positive divisor 2. */
  function StartX(n: nat): int
    requires n >= 1
  {
    (Width - TotalWidth(n)) / 2
  }

  function StartY(n: nat): int
    requires n >= 1
  {
    (Height - TotalHeight(n)) / 2 + 30
  }

  /** The top-left corner of card `i`: column `i % cols`, row `i // cols`. */
  function PositionOf(n: nat, i: nat): Point
    requires n >= 1
  {
    Point(StartX(n) + (i % Columns(n)) * Spacing, StartY(n) + (i / Columns(n)) * Spacing)
  }

  /**
   * `calculate_positions`: one corner per card, in card order. The source
   * divides by `cols`, which is zero for `n == 0`; its caller returns early on
   * an empty character list.
   */
  method CalculatePositions(n: nat) returns (positions: seq<Point>)
    requires n >= 1
    ensures |positions| == n
    ensures forall i :: 0 <= i < n ==> positions[i] == PositionOf(n, i)
  {
    var cols := Columns(n);
    var startX := StartX(n);
    var startY := StartY(n);
    positions := [];
    var i := 0;
    while i < n
      invariant 0 <= i <= n
      invariant |positions| == i
      invariant forall k :: 0 <= k < i ==> positions[k] == PositionOf(n, k)
    {
      var row := i / cols;
      var col := i % cols;
      positions := positions + [Point(startX + col * Spacing, startY + row * Spacing)];
      i := i + 1;
    }
  }

  /** At most two columns: every card starts at one of two x offsets, one if n == 1. */
  lemma AtMostTwoColumns(n: nat, i: nat)
    requires n >= 1 && i < n
    ensures PositionOf(n, i).x == StartX(n) || PositionOf(n, i).x == StartX(n) + Spacing
    ensures n == 1 ==> PositionOf(n, i) == Point(StartX(n), StartY(n))
  {
  }

  /** Every card lies inside the centred block, in one of the `Rows(n)` rows. */
  lemma CardsInsideBlock(n: nat, i: nat)
    requires n >= 1 && i < n
    ensures StartX(n) <= PositionOf(n, i).x && PositionOf(n, i).x + ItemSize <= StartX(n) + TotalWidth(n)
    ensures StartY(n) <= PositionOf(n, i).y && PositionOf(n, i).y + ItemSize <= StartY(n) + TotalHeight(n)
  {
    var c := Columns(n);
    var r := Rows(n);
    assert (i / c) * c <= i;
    assert i / c < r;
    assert (i / c) * Spacing + ItemSize <= r * Spacing - (Spacing - ItemSize) by {
      assert (i / c) * Spacing <= (r - 1) * Spacing;
    }
  }

  /** Distinct cards never overlap: they are at least one card width apart on some axis. */
  lemma CardsDoNotOverlap(n: nat, i: nat, j: nat)
    requires n >= 1 && i < n && j < n && i != j
    ensures var p := PositionOf(n, i); var q := PositionOf(n, j);
      p.x + ItemSize <= q.x || q.x + ItemSize <= p.x || p.y + ItemSize <= q.y || q.y + ItemSize <= p.y
  {
    var c := Columns(n);
    if i / c == j / c {
      assert i % c != j % c by {
        assert i == (i / c) * c + i % c;
        assert j == (j / c) * c + j % c;
      }
    } else if i / c < j / c {
      assert (i / c) * Spacing + Spacing <= (j / c) * Spacing;
    } else {
      assert (j / c) * Spacing + Spacing <= (i / c) * Spacing;
    }
  }

  /**
   * Centring: the margins left and right of the block differ by at most one
   * pixel (the floor of `//` puts the odd pixel on the right), and likewise
   * above and below once the 30 px shift is taken off.
   */
  lemma BlockIsCentred(n: nat)
    requires n >= 1
    ensures var right := Width - (StartX(n) + TotalWidth(n));
      0 <= right - StartX(n) <= 1
    ensures var top := StartY(n) - 30;
      var bottom := Height - (top + TotalHeight(n));
      0 <= bottom - top <= 1
  {
  }
}

=== FILE: Common.dfy ===
/** Small value types shared by the whole model. */
module Common {

  /** The conventional Some/None datatype, standing in for Python's `None`. */
  datatype Option<+T> = None | Some(value: T)

  /** An integer coordinate pair: a grid cell `(x, y)` or a pixel position. */
  datatype Point = Point(x: int, y: int)

  /** Absolute value on exact reals. */
  function Abs(r: real): (a: real)
    ensures a >= 0.0
    ensures a == r || a == -r
  {
    if r < 0.0 then -r else r
  }

  /** Python's `min` on two integers. */
  function Min(a: int, b: int): (m: int)
    ensures m <= a && m <= b
    ensures m == a || m == b
  {
    if a <= b then a else b
  }
}

=== FILE: Config.dfy ===
/** The constants of `config.py` that the modelled core reads. */
module Config {

  // Display settings: the window is 6 x 8 tiles of 80 pixels.
  const TileSize: int := 80
  const GridWidth: int := 6
  const GridHeight: int := 8
  const Width: int := GridWidth * TileSize
  const Height: int := GridHeight * TileSize

  // Game settings.
  const MoveDelay: real := 0.2
  const StarPoints: int := 10
  const LevelCompletePoints: int := 50

  // Hand-gesture settings.
  const PositionHistorySize: nat := 5
  const MovementThreshold: int := 60
  const DirectionHoldTime: real := 0.3
  const CenterZone: int := 50

  // Maze tile codes.
  const Wall: int := 0
  const Path: int := 1
  const Start: int := 2
  const Goal: int := 3
  const Star: int := 4

  /** The keys of the `THEMES` dictionary, in declaration (iteration) order. */
  const ThemeNames: seq<string> := ["forest", "space", "desert", "ocean"]

  /** The `"name"` entry of each theme, index-aligned with `ThemeNames`. */
  const ThemeDisplayNames: seq<string> := ["Forest", "Space", "Desert", "Ocean"]
}

=== FILE: GameStateModel.dfy ===
/**
 * The score and level bookkeeping record of the packaged game: counters, the
 * current theme (a key of the theme table), two UI toggles and the two end
 * flags.
 */
module GameStateModel {
  import opened Common
  import opened Config

  datatype GameState = GameState(
    score: int,
    starsCollected: int,
    totalStars: int,
    currentLevel: int,
    currentTheme: string,
    cameraOn: bool,
    helpOn: bool,
    gameRunning: bool,
    gameWon: bool)

  /** The state of a fresh game. */
  const Initial: GameState := GameState(0, 0, 0, 0, "forest", false, false, true, false)

  /** The current theme names an entry of the theme table. */
  predicate ValidTheme(s: GameState) {
    s.currentTheme in ThemeNames
  }

  function AddScore(s: GameState, points: int): (t: GameState)
    ensures t.score == s.score + points
    ensures t.(score := s.score) == s
  {
    s.(score := s.score + points)
  }

  /** A star adds one to the level's star count and `STAR_POINTS` to the score. */
  function CollectStar(s: GameState): (t: GameState)
    ensures t.starsCollected == s.starsCollected + 1
    ensures t.score == s.score + StarPoints
    ensures t.(score := s.score, starsCollected := s.starsCollected) == s
  {
    AddScore(s.(starsCollected := s.starsCollected + 1), StarPoints)
  }

  /**
   * Completing a level adds `LEVEL_COMPLETE_POINTS`, advances the level and
   * resets the star count; the level's star total is kept.
   */
  function CompleteLevel(s: GameState): (t: GameState)
    ensures t.score == s.score + LevelCompletePoints
    ensures t.currentLevel == s.currentLevel + 1
    ensures t.starsCollected == 0
    ensures t.(score := s.score, currentLevel := s.currentLevel, starsCollected := s.starsCollected) == s
  {
    AddScore(s, LevelCompletePoints).(currentLevel := s.currentLevel + 1, starsCollected := 0)
  }

  /** A boolean answer together with the state it leaves behind. */
  datatype Answer = Answer(value: bool, state: GameState)

  /** Switches to the named theme iff it is a key of the theme table. */
  function ChangeTheme(s: GameState, name: string): (r: Answer)
    ensures r.value <==> name in ThemeNames
    ensures r.value ==> r.state == s.(currentTheme := name)
    ensures !r.value ==> r.state == s
  {
    if name in ThemeNames then Answer(true, s.(currentTheme := name)) else Answer(false, s)
  }

  /**
   * The display name of the current theme. The source indexes the theme
   * table, which raises for an unknown key; the invariant `ValidTheme` rules
   * that out.
   */
  function CurrentThemeName(s: GameState): (n: string)
    requires ValidTheme(s)
    ensures exists i :: 0 <= i < |ThemeNames| && ThemeNames[i] == s.currentTheme && ThemeDisplayNames[i] == n
  {
    if s.currentTheme == "forest" then "Forest"
    else if s.currentTheme == "space" then "Space"
    else if s.currentTheme == "desert" then "Desert"
    else assert ThemeNames[3] == s.currentTheme; "Ocean"
  }

  function ToggleCamera(s: GameState): (r: Answer)
    ensures r.value == r.state.cameraOn == !s.cameraOn
    ensures r.state.(cameraOn := s.cameraOn) == s
  {
    Answer(!s.cameraOn, s.(cameraOn := !s.cameraOn))
  }

  function ToggleHelp(s: GameState): (r: Answer)
    ensures r.value == r.state.helpOn == !s.helpOn
    ensures r.state.(helpOn := s.helpOn) == s
  {
    Answer(!s.helpOn, s.(helpOn := !s.helpOn))
  }

  /** Toggling either flag twice restores the original state. */
  lemma ToggleTwiceRestores(s: GameState)
    ensures ToggleCamera(ToggleCamera(s).state).state == s
    ensures ToggleHelp(ToggleHelp(s).state).state == s
  {
  }

  function SetTotalStars(s: GameState, count: int): (t: GameState)
    ensures t.totalStars == count && t.(totalStars := s.totalStars) == s
  {
    s.(totalStars := count)
  }

  predicate IsLevelCompleteStars(s: GameState) {
    s.starsCollected >= s.totalStars
  }

  function ResetForNewLevel(s: GameState, total: int): (t: GameState)
    ensures t.starsCollected == 0 && t.totalStars == total
    ensures t.(starsCollected := s.starsCollected, totalStars := s.totalStars) == s
    ensures IsLevelCompleteStars(t) <==> total <= 0
  {
    s.(starsCollected := 0, totalStars := total)
  }

  /** Once the level's stars are complete, collecting more keeps it complete. */
  lemma CompletionIsStable(s: GameState, k: nat)
    requires IsLevelCompleteStars(s)
    ensures IsLevelCompleteStars(CollectStars(s, k))
  {
    CollectStarsCount(s, k);
  }

  /** Collecting every star of a freshly reset level completes it, and not before. */
  lemma StarsCompleteAfterAll(s: GameState, total: nat, k: nat)
    ensures IsLevelCompleteStars(CollectStars(ResetForNewLevel(s, total), k)) <==> k >= total
  {
    CollectStarsCount(ResetForNewLevel(s, total), k);
  }

  function CollectStars(s: GameState, k: nat): GameState {
    if k == 0 then s else CollectStar(CollectStars(s, k - 1))
  }

  lemma {:induction false} CollectStarsCount(s: GameState, k: nat)
    ensures CollectStars(s, k).starsCollected == s.starsCollected + k
    ensures CollectStars(s, k).totalStars == s.totalStars
    ensures CollectStars(s, k).score == s.score + k * StarPoints
  {
    if k > 0 {
      CollectStarsCount(s, k - 1);
    }
  }

  function QuitGame(s: GameState): (t: GameState)
    ensures !t.gameRunning && t.(gameRunning := s.gameRunning) == s
  {
    s.(gameRunning := false)
  }

  function WinGame(s: GameState): (t: GameState)
    ensures t.gameWon && !t.gameRunning
    ensures t.(gameWon := s.gameWon, gameRunning := s.gameRunning) == s
  {
    s.(gameWon := true, gameRunning := false)
  }

  // ---------------------------------------------------------------------------
  // The progress text "collected/total"
  // ---------------------------------------------------------------------------

  function DigitChar(d: int): (c: char)
    requires 0 <= d < 10
    ensures '0' <= c <= '9'
    ensures c == '0' <==> d == 0
  {
    "0123456789"[d]
  }

  function DigitValue(c: char): (d: nat)
    ensures d < 10
  {
    if '0' <= c <= '9' then (c as int) - ('0' as int) else 0
  }

  /** Decimal digits of `n`, most significant first, as Python's `str`. */
  function NatToString(n: nat): (s: string)
    ensures |s| > 0
    ensures forall i :: 0 <= i < |s| ==> '0' <= s[i] <= '9'
    ensures s[0] == '0' ==> s == "0"
    ensures n == 0 ==> s == "0"
  {
    if n < 10 then [DigitChar(n)] else NatToString(n / 10) + [DigitChar(n % 10)]
  }

  /**
   * Python's `str` on an integer: a leading minus sign exactly for negatives,
   * then a canonical digit string (no leading zeros except "0" itself).
   */
  function IntToString(n: int): (s: string)
    ensures |s| > 0
    ensures s[0] == '-' <==> n < 0
    ensures var digits := if n < 0 then s[1..] else s;
      && |digits| > 0
      && (forall i :: 0 <= i < |digits| ==> '0' <= digits[i] <= '9')
      && (digits[0] == '0' ==> digits == "0")
    ensures '/' !in s
  {
    if n < 0 then "-" + NatToString(-n) else NatToString(n)
  }

  function ParseNat(s: string): nat {
    if |s| == 0 then 0 else ParseNat(s[..|s| - 1]) * 10 + DigitValue(s[|s| - 1])
  }

  function ParseInt(s: string): int {
    if |s| > 0 && s[0] == '-' then -(ParseNat(s[1..]) as int) else ParseNat(s)
  }

  lemma {:induction false} ParseNatToString(n: nat)
    ensures ParseNat(NatToString(n)) == n
  {
    var s := NatToString(n);
    if n >= 10 {
      ParseNatToString(n / 10);
      assert s[..|s| - 1] == NatToString(n / 10);
    }
  }

  lemma ParseIntToString(n: int)
    ensures ParseInt(IntToString(n)) == n
  {
    if n < 0 {
      var digits := NatToString(-n);
      ParseNatToString(-n);
      assert ("-" + digits)[1..] == digits;
      assert ParseInt("-" + digits) == -(ParseNat(digits) as int);
    } else {
      var digits := NatToString(n);
      ParseNatToString(n);
      assert digits[0] != '-';
      assert ParseInt(digits) == ParseNat(digits);
    }
  }

  /**
   * `get_stars_progress`: the two counters separated by a slash. The text
   * determines both counters: reading it back gives them.
   */
  function StarsProgress(s: GameState): (text: string)
    ensures ParseProgress(text) == Some((s.starsCollected, s.totalStars))
  {
    JoinRoundTrip(s.starsCollected, s.totalStars);
    IntToString(s.starsCollected) + "/" + IntToString(s.totalStars)
  }

  /** Index of the first '/' in `s`, or |s| when there is none. */
  function SlashIndex(s: string): (i: nat)
    ensures i <= |s| && '/' !in s[..i]
    ensures i < |s| ==> s[i] == '/'
  {
    if |s| == 0 then 0
    else if s[0] == '/' then 0
    else
      var j := SlashIndex(s[1..]);
      assert s[..j + 1] == [s[0]] + s[1..][..j];
      j + 1
  }

  /** Reads "a/b" back into the pair (a, b). */
  function ParseProgress(text: string): Option<(int, int)> {
    var i := SlashIndex(text);
    if i == |text| then None else Some((ParseInt(text[..i]), ParseInt(text[i + 1..])))
  }

  lemma SlashIndexOfJoin(a: string, b: string)
    requires '/' !in a
    ensures SlashIndex(a + "/" + b) == |a|
  {
    var s := a + "/" + b;
    assert s[|a|] == '/' && s[..|a|] == a;
  }

  /** Two renderings joined by a slash split and read back into the two integers. */
  lemma JoinRoundTrip(x: int, y: int)
    ensures ParseProgress(IntToString(x) + "/" + IntToString(y)) == Some((x, y))
  {
    var a := IntToString(x);
    var b := IntToString(y);
    var text := a + "/" + b;
    SlashIndexOfJoin(a, b);
    assert text[..|a|] == a;
    assert text[|a| + 1..] == b;
    ParseIntToString(x);
    ParseIntToString(y);
  }

  // ---------------------------------------------------------------------------
  // Invariants over any sequence of operations
  // ---------------------------------------------------------------------------

  /** Every state-changing method of the record, as data. */
  datatype Op =
    | AddScoreOp(points: int)
    | CollectStarOp
    | CompleteLevelOp
    | ChangeThemeOp(name: string)
    | ToggleCameraOp
    | ToggleHelpOp
    | SetTotalStarsOp(count: int)
    | ResetForNewLevelOp(total: int)
    | QuitGameOp
    | WinGameOp

  function Apply(s: GameState, op: Op): GameState {
    match op
    case AddScoreOp(points) => AddScore(s, points)
    case CollectStarOp => CollectStar(s)
    case CompleteLevelOp => CompleteLevel(s)
    case ChangeThemeOp(name) => ChangeTheme(s, name).state
    case ToggleCameraOp => ToggleCamera(s).state
    case ToggleHelpOp => ToggleHelp(s).state
    case SetTotalStarsOp(count) => SetTotalStars(s, count)
    case ResetForNewLevelOp(total) => ResetForNewLevel(s, total)
    case QuitGameOp => QuitGame(s)
    case WinGameOp => WinGame(s)
  }

  function ApplyAll(s: GameState, ops: seq<Op>): GameState
    decreases |ops|
  {
    if |ops| == 0 then s else ApplyAll(Apply(s, ops[0]), ops[1..])
  }

  /** Only non-negative score additions (the only ones the game makes). */
  predicate NonNegativeScoring(ops: seq<Op>) {
    forall i :: 0 <= i < |ops| ==> (ops[i].AddScoreOp? ==> ops[i].points >= 0)
  }

  /**
   * From a valid state, any sequence of operations keeps the theme a key of
   * the theme table; and the score never decreases unless a negative amount
   * is added explicitly.
   */
  lemma {:induction false} OperationsPreserveInvariants(s: GameState, ops: seq<Op>)
    requires ValidTheme(s)
    ensures ValidTheme(ApplyAll(s, ops))
    ensures NonNegativeScoring(ops) ==> ApplyAll(s, ops).score >= s.score
    decreases |ops|
  {
    if |ops| > 0 {
      var t := Apply(s, ops[0]);
      assert ValidTheme(t);
      OperationsPreserveInvariants(t, ops[1..]);
      if NonNegativeScoring(ops) {
        assert NonNegativeScoring(ops[1..]) by {
          forall i | 0 <= i < |ops[1..]| ensures (ops[1..][i].AddScoreOp? ==> ops[1..][i].points >= 0) {
            assert ops[1..][i] == ops[i + 1];
          }
        }
        assert t.score >= s.score;
      }
    }
  }

  lemma InitialIsValid()
    ensures ValidTheme(Initial) && Initial.gameRunning && !Initial.gameWon
  {
  }
}

=== FILE: HandController.dfy ===
/**
 * The hand-gesture direction estimator: a sliding window of fingertip
 * positions is averaged, compared against the frame centre with a dead zone
 * and a movement threshold, and the resulting four-way direction is debounced
 * over time.
 *
 * The detector itself is not modelled. A frame's detection is the sequence of
 * fingertip positions it reports, already in integer pixels, one per hand; the
 * empty sequence means that no hand was seen. The wall clock is the parameter
 * `now`, in seconds.
 */
module HandController {
  import opened Common
  import opened Config

  /** A movement direction; the estimator only ever emits cardinal ones. */
  datatype Direction = Direction(dx: int, dy: int)

  const Neutral: Direction := Direction(0, 0)

  /** Neutral, or exactly one axis set to +1 or -1: never diagonal. */
  predicate IsCardinal(d: Direction) {
    || d == Neutral
    || (d.dy == 0 && (d.dx == 1 || d.dx == -1))
    || (d.dx == 0 && (d.dy == 1 || d.dy == -1))
  }

  /** A pixel position with exact real coordinates (the smoothed position). */
  datatype RealPoint = RealPoint(x: real, y: real)

  /**
   * The state kept between frames: the recent fingertip samples (oldest
   * first), the last confirmed direction and the time it was confirmed.
   */
  datatype Estimator = Estimator(history: seq<Point>, lastDirection: Direction, lastDirectionTime: real)

  /** The state of a freshly constructed controller. */
  const Initial: Estimator := Estimator([], Neutral, 0.0)

  /** The invariant every reachable estimator state satisfies. */
  predicate WellFormed(e: Estimator) {
    |e.history| <= PositionHistorySize && IsCardinal(e.lastDirection)
  }

  lemma InitialIsWellFormed()
    ensures WellFormed(Initial)
  {
  }

  // ---------------------------------------------------------------------------
  // The position history
  // ---------------------------------------------------------------------------

  /**
   * Appends the newest sample and, when the history has grown past its
   * capacity, drops the single oldest one.
   */
  function AddPosition(h: seq<Point>, p: Point): (r: seq<Point>)
    ensures |r| >= 1 && r[|r| - 1] == p
    ensures |r| <= |h| + 1 && r == (h + [p])[|h| + 1 - |r|..]
    ensures |h| < PositionHistorySize ==> |r| == |h| + 1
    ensures |h| >= PositionHistorySize ==> |r| == |h|
    ensures |h| <= PositionHistorySize ==> |r| <= PositionHistorySize
  {
    var appended := h + [p];
    if |appended| > PositionHistorySize then appended[1..] else appended
  }

  /** The last (at most) `PositionHistorySize` elements of `s`. */
  function LastSamples(s: seq<Point>): (r: seq<Point>)
    ensures |r| == Min(|s|, PositionHistorySize)
  {
    s[|s| - Min(|s|, PositionHistorySize)..]
  }

  /** Records every sample of `ps` in order. */
  function RecordAll(h: seq<Point>, ps: seq<Point>): seq<Point>
    decreases |ps|
  {
    if |ps| == 0 then h else RecordAll(AddPosition(h, ps[0]), ps[1..])
  }

  /**
   * Starting from any history within capacity, recording a stream of samples
   * leaves exactly the last (at most five) samples of the whole stream, in
   * insertion order.
   */
  lemma {:induction false} HistoryKeepsLastSamples(h: seq<Point>, ps: seq<Point>)
    requires |h| <= PositionHistorySize
    ensures RecordAll(h, ps) == LastSamples(h + ps)
    decreases |ps|
  {
    if |ps| == 0 {
      assert h + ps == h;
    } else {
      var h' := AddPosition(h, ps[0]);
      HistoryKeepsLastSamples(h', ps[1..]);
      assert RecordAll(h, ps) == RecordAll(h', ps[1..]);
      var s := h + ps;
      var s' := h' + ps[1..];
      assert h' == (h + [ps[0]])[|h| + 1 - |h'|..];
      assert s' == s[|h| + 1 - |h'|..] by {
        assert h + ps == (h + [ps[0]]) + ps[1..];
      }
      assert LastSamples(s') == LastSamples(s);
    }
  }

  // ---------------------------------------------------------------------------
  // Smoothing
  // ---------------------------------------------------------------------------

  /** The two coordinate axes of a fingertip sample. */
  datatype Axis = X | Y

  function Coord(p: Point, a: Axis): int {
    match a
    case X => p.x
    case Y => p.y
  }

  /** The sum of the samples' coordinates on one axis. */
  function Sum(h: seq<Point>, a: Axis): int {
    if |h| == 0 then 0 else Sum(h[..|h| - 1], a) + Coord(h[|h| - 1], a)
  }

  /**
   * The per-axis arithmetic mean of the history, or None when it is empty.
   * The mean is characterised exactly: multiplied by the sample count it gives
   * back the sum of the samples.
   */
  function SmoothedPosition(h: seq<Point>): (r: Option<RealPoint>)
    ensures r.None? <==> |h| == 0
    ensures r.Some? ==> r.value.x * (|h| as real) == Sum(h, X) as real
    ensures r.Some? ==> r.value.y * (|h| as real) == Sum(h, Y) as real
  {
    if |h| == 0 then None
    else
      var n := |h| as real;
      Some(RealPoint(Sum(h, X) as real / n, Sum(h, Y) as real / n))
  }

  /** If every sample's coordinate on the axis is in [lo, hi], the sum lies between n*lo and n*hi. */
  lemma {:induction false} SumBounds(h: seq<Point>, a: Axis, lo: int, hi: int)
    requires forall i :: 0 <= i < |h| ==> lo <= Coord(h[i], a) <= hi
    ensures |h| * lo <= Sum(h, a) <= |h| * hi
    decreases |h|
  {
    if |h| > 0 {
      var init := h[..|h| - 1];
      assert forall i :: 0 <= i < |init| ==> init[i] == h[i];
      SumBounds(init, a, lo, hi);
      assert |h| * lo == |init| * lo + lo;
      assert |h| * hi == |init| * hi + hi;
    }
  }

  /** Smoothing never leaves the bounding box of the retained samples. */
  lemma SmoothedWithinBounds(h: seq<Point>, lo: Point, hi: Point)
    requires |h| > 0
    requires forall i :: 0 <= i < |h| ==> lo.x <= h[i].x <= hi.x && lo.y <= h[i].y <= hi.y
    ensures SmoothedPosition(h).Some?
    ensures lo.x as real <= SmoothedPosition(h).value.x <= hi.x as real
    ensures lo.y as real <= SmoothedPosition(h).value.y <= hi.y as real
  {
    SumBounds(h, X, lo.x, hi.x);
    SumBounds(h, Y, lo.y, hi.y);
    MeanBetween(|h|, Sum(h, X), lo.x, hi.x);
    MeanBetween(|h|, Sum(h, Y), lo.y, hi.y);
  }

  /** An integer sum of n values in [lo, hi] has its real mean in [lo, hi]. */
  lemma MeanBetween(n: int, sum: int, lo: int, hi: int)
    requires n > 0 && n * lo <= sum <= n * hi
    ensures lo as real <= sum as real / n as real <= hi as real
  {
    var m := sum as real / n as real;
    assert m * n as real == sum as real;
    assert (n * lo) as real == n as real * lo as real;
    assert (n * hi) as real == n as real * hi as real;
  }

  /** A history holding one repeated sample smooths to exactly that sample. */
  lemma SmoothedConstant(h: seq<Point>, p: Point)
    requires |h| > 0
    requires forall i :: 0 <= i < |h| ==> h[i] == p
    ensures SmoothedPosition(h) == Some(RealPoint(p.x as real, p.y as real))
  {
    SmoothedWithinBounds(h, p, p);
  }

  // ---------------------------------------------------------------------------
  // Direction estimation
  // ---------------------------------------------------------------------------

  /**
   * The direction suggested by an offset from the frame centre: the axis with
   * the strictly larger magnitude wins (ties go to the vertical axis), and it
   * only counts when its magnitude strictly exceeds the movement threshold.
   */
  function Candidate(dx: real, dy: real): (d: Direction)
    ensures IsCardinal(d)
    ensures d.dx != 0 <==> Abs(dx) > Abs(dy) && Abs(dx) > MovementThreshold as real
    ensures d.dy != 0 <==> Abs(dx) <= Abs(dy) && Abs(dy) > MovementThreshold as real
    ensures d.dx != 0 ==> (d.dx == 1 <==> dx > 0.0)
    ensures d.dy != 0 ==> (d.dy == 1 <==> dy > 0.0)
  {
    if Abs(dx) > Abs(dy) then
      if Abs(dx) > MovementThreshold as real then Direction(if dx > 0.0 then 1 else -1, 0)
      else Neutral
    else
      if Abs(dy) > MovementThreshold as real then Direction(0, if dy > 0.0 then 1 else -1)
      else Neutral
  }

  /** The threshold logic is direction-agnostic: mirroring an axis mirrors the result. */
  lemma CandidateSymmetric(dx: real, dy: real)
    ensures Candidate(-dx, dy) == Direction(-Candidate(dx, dy).dx, Candidate(dx, dy).dy)
    ensures Candidate(dx, -dy) == Direction(Candidate(dx, dy).dx, -Candidate(dx, dy).dy)
  {
  }

  /** Offset of the mean of a non-empty history from the frame centre `(w // 2, h // 2)`. */
  function Offset(hist: seq<Point>, w: int, h: int): (o: RealPoint)
    requires |hist| > 0
    ensures o.x * (|hist| as real) == Sum(hist, X) as real - (|hist| * (w / 2)) as real
    ensures o.y * (|hist| as real) == Sum(hist, Y) as real - (|hist| * (h / 2)) as real
  {
    var s := SmoothedPosition(hist).value;
    RealPoint(s.x - (w / 2) as real, s.y - (h / 2) as real)
  }

  /** Strictly inside the square dead zone around the centre. */
  predicate InDeadZone(o: RealPoint) {
    Abs(o.x) < CenterZone as real && Abs(o.y) < CenterZone as real
  }

  /** A debounce suppression: a different direction inside the hold time. */
  predicate Suppressed(e: Estimator, c: Direction, now: real) {
    c != e.lastDirection && now - e.lastDirectionTime < DirectionHoldTime
  }

  /** What one call returns, and the estimator state it leaves behind. */
  datatype Outcome = Outcome(direction: Direction, state: Estimator)

  /**
   * One frame of gesture processing. With no hand nothing changes; otherwise
   * the first hand's fingertip is recorded, and the smoothed offset goes
   * through the dead zone, the axis choice and the debounce in that order.
   * The state only ever changes by recording the sample and, when a new
   * non-neutral direction is emitted, confirming it at time `now`.
   */
  function GetDirection(e: Estimator, hands: seq<Point>, w: int, h: int, now: real): (r: Outcome)
    ensures |hands| == 0 ==> r == Outcome(Neutral, e)
    ensures |hands| > 0 ==> r.state.history == AddPosition(e.history, hands[0])
    ensures || (r.state.lastDirection == e.lastDirection && r.state.lastDirectionTime == e.lastDirectionTime)
            || (r.state.lastDirection == r.direction && r.direction != Neutral && r.state.lastDirectionTime == now)
    ensures r.direction == Neutral || r.direction == r.state.lastDirection
    ensures IsCardinal(e.lastDirection) ==> IsCardinal(r.direction) && IsCardinal(r.state.lastDirection)
    ensures WellFormed(e) ==> WellFormed(r.state)
  {
    if |hands| == 0 then Outcome(Neutral, e)
    else
      var hist := AddPosition(e.history, hands[0]);
      var recorded := e.(history := hist);
      match SmoothedPosition(hist)
      case None => Outcome(Neutral, recorded)
      case Some(_) =>
        var o := Offset(hist, w, h);
        if InDeadZone(o) then Outcome(Neutral, recorded)
        else
          var c := Candidate(o.x, o.y);
          if Suppressed(e, c, now) then Outcome(e.lastDirection, recorded)
          else if c != Neutral then
            Outcome(c, recorded.(lastDirection := c, lastDirectionTime := now))
          else Outcome(Neutral, recorded)
  }

  /** No hand: neutral, and history, last direction and its time are untouched. */
  lemma NoHandChangesNothing(e: Estimator, w: int, h: int, now: real)
    ensures GetDirection(e, [], w, h, now) == Outcome(Neutral, e)
  {
  }

  /** Only the first reported hand is consulted. */
  lemma OnlyFirstHandCounts(e: Estimator, hands: seq<Point>, others: seq<Point>, w: int, h: int, now: real)
    requires |hands| > 0
    ensures GetDirection(e, hands + others, w, h, now) == GetDirection(e, [hands[0]], w, h, now)
  {
    assert (hands + others)[0] == hands[0];
  }

  /**
   * Dead zone: a smoothed offset strictly inside the zone gives neutral and
   * leaves the debounce memory alone, even inside the hold time; the sample
   * has still been recorded. The zone is stated on the integer sums: the n
   * samples' offset from n times the centre is below n times the zone size.
   */
  lemma DeadZoneWins(e: Estimator, p: Point, w: int, h: int, now: real)
    requires var hist := AddPosition(e.history, p); var n := |hist|;
      && -CenterZone * n < Sum(hist, X) - n * (w / 2) < CenterZone * n
      && -CenterZone * n < Sum(hist, Y) - n * (h / 2) < CenterZone * n
    ensures GetDirection(e, [p], w, h, now)
         == Outcome(Neutral, e.(history := AddPosition(e.history, p)))
  {
    var hist := AddPosition(e.history, p);
    var o := Offset(hist, w, h);
    ScaledBelow(o.x, |hist|, Sum(hist, X) - |hist| * (w / 2), CenterZone);
    ScaledBelow(o.y, |hist|, Sum(hist, Y) - |hist| * (h / 2), CenterZone);
  }

  /** A real that n > 0 scales to an integer strictly inside (-z*n, z*n) is strictly inside (-z, z). */
  lemma ScaledBelow(a: real, n: int, b: int, z: int)
    requires n > 0 && a * (n as real) == b as real
    requires -z * n < b < z * n
    ensures Abs(a) < z as real
  {
  }

  /**
   * Debounce suppression: outside the dead zone, a candidate that differs
   * from the last direction inside the hold time re-emits the last direction
   * and leaves it and its time unchanged. This includes a neutral candidate.
   */
  lemma DebounceSuppresses(e: Estimator, p: Point, w: int, h: int, now: real)
    requires var o := Offset(AddPosition(e.history, p), w, h);
      !InDeadZone(o) && Candidate(o.x, o.y) != e.lastDirection
      && now - e.lastDirectionTime < DirectionHoldTime
    ensures GetDirection(e, [p], w, h, now)
         == Outcome(e.lastDirection, e.(history := AddPosition(e.history, p)))
  {
  }

  /**
   * Debounce pass-through: outside the dead zone, a candidate that is not
   * suppressed is returned; when it is non-neutral it becomes the last
   * direction, confirmed at `now`, and when it is neutral the debounce memory
   * is kept.
   */
  lemma DebouncePasses(e: Estimator, p: Point, w: int, h: int, now: real)
    requires var o := Offset(AddPosition(e.history, p), w, h);
      !InDeadZone(o) && !Suppressed(e, Candidate(o.x, o.y), now)
    ensures var o := Offset(AddPosition(e.history, p), w, h);
      var c := Candidate(o.x, o.y);
      var hist := AddPosition(e.history, p);
      GetDirection(e, [p], w, h, now)
      == if c != Neutral then Outcome(c, Estimator(hist, c, now))
         else Outcome(Neutral, e.(history := hist))
  {
  }

  // ---------------------------------------------------------------------------
  // Runs over many frames
  // ---------------------------------------------------------------------------

  /** One polled video frame: the fingertips detected, the frame size and the clock. */
  datatype Frame = Frame(hands: seq<Point>, width: int, height: int, now: real)

  /** The directions returned for a sequence of frames, and the final state. */
  datatype Trace = Trace(directions: seq<Direction>, state: Estimator)

  function Run(e: Estimator, frames: seq<Frame>): (t: Trace)
    ensures |t.directions| == |frames|
    decreases |frames|
  {
    if |frames| == 0 then Trace([], e)
    else
      var f := frames[0];
      var step := GetDirection(e, f.hands, f.width, f.height, f.now);
      var rest := Run(step.state, frames[1..]);
      Trace([step.direction] + rest.directions, rest.state)
  }

  /** The fingertip samples a run records: the first hand of each frame with one. */
  function Samples(frames: seq<Frame>): seq<Point>
    decreases |frames|
  {
    if |frames| == 0 then []
    else if |frames[0].hands| == 0 then Samples(frames[1..])
    else [frames[0].hands[0]] + Samples(frames[1..])
  }

  /**
   * Never diagonal, over any run from a well-formed state (in particular from
   * `Initial`): every returned direction is cardinal and the state stays
   * well-formed.
   */
  lemma {:induction false} RunStaysCardinal(e: Estimator, frames: seq<Frame>)
    requires WellFormed(e)
    ensures WellFormed(Run(e, frames).state)
    ensures forall i :: 0 <= i < |frames| ==> IsCardinal(Run(e, frames).directions[i])
    decreases |frames|
  {
    if |frames| > 0 {
      var f := frames[0];
      var step := GetDirection(e, f.hands, f.width, f.height, f.now);
      RunStaysCardinal(step.state, frames[1..]);
    }
  }

  /**
   * After any run, the history is exactly the last (at most five) fingertip
   * samples recorded, in the order they were seen.
   */
  lemma {:induction false} RunHistoryIsLastSamples(e: Estimator, frames: seq<Frame>)
    requires |e.history| <= PositionHistorySize
    ensures Run(e, frames).state.history == RecordAll(e.history, Samples(frames))
    ensures Run(e, frames).state.history == LastSamples(e.history + Samples(frames))
    decreases |frames|
  {
    HistoryKeepsLastSamples(e.history, Samples(frames));
    if |frames| > 0 {
      var f := frames[0];
      var step := GetDirection(e, f.hands, f.width, f.height, f.now);
      RunHistoryIsLastSamples(step.state, frames[1..]);
      if |f.hands| > 0 {
        var ps := Samples(frames);
        assert ps[0] == f.hands[0] && ps[1..] == Samples(frames[1..]);
      }
    }
  }

  // ---------------------------------------------------------------------------
  // Worked scenarios on a 640 x 480 camera frame
  // ---------------------------------------------------------------------------

  /** A fingertip held at the exact centre gives neutral, even with a full window. */
  lemma CentredHandIsNeutral(e: Estimator, now: real)
    requires |e.history| <= PositionHistorySize
    requires forall i :: 0 <= i < |e.history| ==> e.history[i] == Point(320, 240)
    ensures GetDirection(e, [Point(320, 240)], 640, 480, now).direction == Neutral
  {
    var hist := AddPosition(e.history, Point(320, 240));
    assert forall i :: 0 <= i < |hist| ==> hist[i] == Point(320, 240);
    SmoothedConstant(hist, Point(320, 240));
  }

  /** A fingertip held 100 px right of centre, outside any hold time, gives (1, 0). */
  lemma HeldRightMovesRight(e: Estimator, now: real)
    requires |e.history| <= PositionHistorySize
    requires forall i :: 0 <= i < |e.history| ==> e.history[i] == Point(420, 240)
    requires now - e.lastDirectionTime >= DirectionHoldTime
    ensures GetDirection(e, [Point(420, 240)], 640, 480, now)
         == Outcome(Direction(1, 0), Estimator(AddPosition(e.history, Point(420, 240)), Direction(1, 0), now))
  {
    var hist := AddPosition(e.history, Point(420, 240));
    assert forall i :: 0 <= i < |hist| ==> hist[i] == Point(420, 240);
    SmoothedConstant(hist, Point(420, 240));
  }

  /**
   * Within the hold time after confirming (1, 0), a fingertip that suggests
   * (0, 1) still yields (1, 0).
   */
  lemma JitterIsDebounced(e: Estimator, now: real)
    requires e.lastDirection == Direction(1, 0)
    requires |e.history| <= PositionHistorySize
    requires forall i :: 0 <= i < |e.history| ==> e.history[i] == Point(320, 340)
    requires now - e.lastDirectionTime < DirectionHoldTime
    ensures GetDirection(e, [Point(320, 340)], 640, 480, now).direction == Direction(1, 0)
  {
    var hist := AddPosition(e.history, Point(320, 340));
    assert forall i :: 0 <= i < |hist| ==> hist[i] == Point(320, 340);
    SmoothedConstant(hist, Point(320, 340));
  }
}

=== FILE: MazeLoader.dfy ===
/**
 * The grouping step of the maze file loader. The file is a sequence of lines;
 * each is stripped of surrounding white space before it reaches this model. A
 * line starting with `#` closes the maze being collected, a blank line is
 * skipped, and any other line is one row of integer tile codes.
 *
 * Opening the file and the fallback maze used when it is missing are not
 * modelled; turning a row line into integers (`int` over `split`) is the
 * parameter `parse`.
 */
module MazeLoader {
  import opened MazeModel

  datatype LineKind = Separator | Blank | Row

  /** How the loader treats one stripped line. */
  function Kind(line: string): (k: LineKind)
    ensures k == Separator <==> |line| > 0 && line[0] == '#'
    ensures k == Blank <==> |line| == 0
  {
    if |line| > 0 && line[0] == '#' then Separator
    else if |line| == 0 then Blank
    else Row
  }

  /** Emits the maze being collected, unless it is empty. */
  function Flush(current: Grid): (r: seq<Grid>)
    ensures |r| <= 1
    ensures forall i :: 0 <= i < |r| ==> r[i] == current && |current| > 0
    ensures |current| > 0 ==> r == [current]
  {
    if |current| == 0 then [] else [current]
  }

  /**
   * The loop of the loader, continuing with the rows `current` collected so
   * far. No empty maze is ever emitted.
   */
  function GroupFrom(lines: seq<string>, parse: string -> seq<int>, current: Grid): (r: seq<Grid>)
    ensures forall i :: 0 <= i < |r| ==> |r[i]| > 0
    decreases |lines|
  {
    if |lines| == 0 then Flush(current)
    else
      match Kind(lines[0])
      case Separator => Flush(current) + GroupFrom(lines[1..], parse, [])
      case Blank => GroupFrom(lines[1..], parse, current)
      case Row => GroupFrom(lines[1..], parse, current + [parse(lines[0])])
  }

  /** The grids of all mazes of a file, in file order. */
  function Group(lines: seq<string>, parse: string -> seq<int>): seq<Grid> {
    GroupFrom(lines, parse, [])
  }

  /** Every row line of the file, parsed, in file order. */
  function RowLines(lines: seq<string>, parse: string -> seq<int>): Grid
    decreases |lines|
  {
    if |lines| == 0 then []
    else if Kind(lines[0]) == Row then [parse(lines[0])] + RowLines(lines[1..], parse)
    else RowLines(lines[1..], parse)
  }

  function Flatten(gs: seq<Grid>): Grid
    decreases |gs|
  {
    if |gs| == 0 then [] else gs[0] + Flatten(gs[1..])
  }

  lemma {:induction false} FlattenAppend(a: seq<Grid>, b: seq<Grid>)
    ensures Flatten(a + b) == Flatten(a) + Flatten(b)
    decreases |a|
  {
    if |a| == 0 {
      assert a + b == b;
    } else {
      assert (a + b)[1..] == a[1..] + b;
      FlattenAppend(a[1..], b);
    }
  }

  /**
   * Nothing is lost or reordered: concatenating the mazes gives back every row
   * line of the file, in order.
   */
  lemma {:induction false} GroupKeepsEveryRow(lines: seq<string>, parse: string -> seq<int>, current: Grid)
    ensures Flatten(GroupFrom(lines, parse, current)) == current + RowLines(lines, parse)
    decreases |lines|
  {
    if |lines| == 0 {
      assert Flatten(Flush(current)) == current;
    } else {
      var rest := lines[1..];
      match Kind(lines[0])
      case Separator =>
        GroupKeepsEveryRow(rest, parse, []);
        FlattenAppend(Flush(current), GroupFrom(rest, parse, []));
        assert Flatten(Flush(current)) == current;
      case Blank =>
        GroupKeepsEveryRow(rest, parse, current);
      case Row =>
        GroupKeepsEveryRow(rest, parse, current + [parse(lines[0])]);
    }
  }

  /** A run of lines without a separator yields at most one maze: all its rows. */
  lemma {:induction false} GroupWithoutSeparator(lines: seq<string>, parse: string -> seq<int>, current: Grid)
    requires forall i :: 0 <= i < |lines| ==> Kind(lines[i]) != Separator
    ensures GroupFrom(lines, parse, current) == Flush(current + RowLines(lines, parse))
    decreases |lines|
  {
    if |lines| > 0 {
      var rest := lines[1..];
      assert forall i :: 0 <= i < |rest| ==> rest[i] == lines[i + 1];
      if Kind(lines[0]) == Row {
        GroupWithoutSeparator(rest, parse, current + [parse(lines[0])]);
        assert current + [parse(lines[0])] + RowLines(rest, parse) == current + RowLines(lines, parse);
      } else {
        GroupWithoutSeparator(rest, parse, current);
      }
    } else {
      assert current + RowLines(lines, parse) == current;
    }
  }

  /**
   * A separator line closes the current maze: the mazes before and after it
   * are grouped independently and appear in file order.
   */
  lemma {:induction false} GroupSplitsAtSeparator(a: seq<string>, sep: string, b: seq<string>, parse: string -> seq<int>, current: Grid)
    requires Kind(sep) == Separator
    ensures GroupFrom(a + [sep] + b, parse, current) == GroupFrom(a, parse, current) + Group(b, parse)
    decreases |a|
  {
    var whole := a + [sep] + b;
    if |a| == 0 {
      assert whole == [sep] + b;
      assert whole[1..] == b;
    } else {
      assert whole[0] == a[0];
      assert whole[1..] == a[1..] + [sep] + b;
      match Kind(a[0])
      case Separator =>
        GroupSplitsAtSeparator(a[1..], sep, b, parse, []);
      case Blank =>
        GroupSplitsAtSeparator(a[1..], sep, b, parse, current);
      case Row =>
        GroupSplitsAtSeparator(a[1..], sep, b, parse, current + [parse(a[0])]);
    }
  }

  /**
   * `MazeLoader.load_mazes_from_file` on already-read lines: the same loop,
   * wrapping each finished group in a `Maze`.
   */
  method LoadMazes(lines: seq<string>, parse: string -> seq<int>) returns (mazes: seq<Maze>)
    ensures |mazes| == |Group(lines, parse)|
    ensures forall i :: 0 <= i < |mazes| ==> mazes[i] == NewMaze(Group(lines, parse)[i])
    ensures forall i :: 0 <= i < |mazes| ==> |mazes[i].data| > 0
  {
    mazes := [];
    var grids: seq<Grid> := [];
    var current: Grid := [];
    var i := 0;
    while i < |lines|
      invariant 0 <= i <= |lines|
      invariant grids + GroupFrom(lines[i..], parse, current) == Group(lines, parse)
      invariant |mazes| == |grids|
      invariant forall k :: 0 <= k < |mazes| ==> mazes[k] == NewMaze(grids[k])
    {
      var line := lines[i];
      assert lines[i..][0] == line && lines[i..][1..] == lines[i + 1..];
      match Kind(line) {
        case Separator =>
          if |current| > 0 {
            mazes := mazes + [NewMaze(current)];
            grids := grids + [current];
          }
          current := [];
        case Blank =>
        case Row =>
          current := current + [parse(line)];
      }
      i := i + 1;
    }
    assert lines[i..] == [];
    if |current| > 0 {
      mazes := mazes + [NewMaze(current)];
      grids := grids + [current];
    }
  }
}

=== FILE: MazeModel.dfy ===
/**
 * A maze level: an integer tile grid (rows top to bottom) together with the
 * list of stars that have not been collected yet.
 *
 * The range test `0 <= x < len(data[0]) and 0 <= y < len(data)` reads
 * `data[0]` only once `0 <= x` holds, so Python raises `IndexError` on an
 * empty grid only for a non-negative x, and on `data[y][x]` when an in-range
 * row is shorter than the first one; the lookups below therefore require
 * exactly what makes their own indexing safe (`Lookupable`).
 */
module MazeModel {
  import opened Common
  import opened Config

  type Grid = seq<seq<int>>

  /** `p` is an existing cell of `g` (rows may have different lengths). */
  predicate IsCell(g: Grid, p: Point) {
    0 <= p.y < |g| && 0 <= p.x < |g[p.y]|
  }

  /** `p` is an existing cell of `g` holding tile `t`. */
  predicate HasTile(g: Grid, p: Point, t: int) {
    IsCell(g, p) && g[p.y][p.x] == t
  }

  /** Row-major order: by row, then by column. */
  predicate RowMajorBefore(a: Point, b: Point) {
    a.y < b.y || (a.y == b.y && a.x < b.x)
  }

  /** Strictly increasing in row-major order (so also free of duplicates). */
  predicate RowMajorSorted(s: seq<Point>) {
    forall i, j :: 0 <= i < j < |s| ==> RowMajorBefore(s[i], s[j])
  }

  predicate NoDuplicates(s: seq<Point>) {
    forall i, j :: 0 <= i < j < |s| ==> s[i] != s[j]
  }

  lemma SortedHasNoDuplicates(s: seq<Point>)
    requires RowMajorSorted(s)
    ensures NoDuplicates(s)
  {
  }

  // ---------------------------------------------------------------------------
  // Scanning the grid
  // ---------------------------------------------------------------------------

  /** The cells of `row` (row number `y`) from column `x` on that hold `t`, left to right. */
  function CellsInRow(row: seq<int>, y: int, t: int, x: nat): (r: seq<Point>)
    requires x <= |row|
    ensures forall p :: p in r <==> p.y == y && x <= p.x < |row| && row[p.x] == t
    ensures forall i :: 0 <= i < |r| ==> r[i].y == y && x <= r[i].x
    ensures RowMajorSorted(r)
    decreases |row| - x
  {
    if x == |row| then []
    else
      var rest := CellsInRow(row, y, t, x + 1);
      if row[x] == t then [Point(x, y)] + rest else rest
  }

  /** The cells of rows `y..` of `g` that hold `t`, in row-major order. */
  function CellsFrom(g: Grid, t: int, y: nat): (r: seq<Point>)
    requires y <= |g|
    ensures forall p :: p in r <==> y <= p.y && HasTile(g, p, t)
    ensures forall i :: 0 <= i < |r| ==> y <= r[i].y
    ensures RowMajorSorted(r)
    decreases |g| - y
  {
    if y == |g| then []
    else
      var here := CellsInRow(g[y], y, t, 0);
      var rest := CellsFrom(g, t, y + 1);
      assert forall i :: 0 <= i < |here| ==> here[i] in here;
      assert forall i :: 0 <= i < |rest| ==> rest[i] in rest;
      here + rest
  }

  /**
   * Every cell of `g` holding `t`, exactly once each, in row-major order: the
   * nested `enumerate` loops of the source.
   */
  function CellsOf(g: Grid, t: int): (r: seq<Point>)
    ensures forall p :: p in r <==> HasTile(g, p, t)
    ensures RowMajorSorted(r)
  {
    CellsFrom(g, t, 0)
  }

  /** Number of tiles equal to `t` in columns `x..` of `row`. */
  function CountInRow(row: seq<int>, t: int, x: nat): nat
    requires x <= |row|
    decreases |row| - x
  {
    if x == |row| then 0
    else (if row[x] == t then 1 else 0) + CountInRow(row, t, x + 1)
  }

  /** Number of tiles equal to `t` in rows `y..` of `g`. */
  function CountFrom(g: Grid, t: int, y: nat): nat
    requires y <= |g|
    decreases |g| - y
  {
    if y == |g| then 0 else CountInRow(g[y], t, 0) + CountFrom(g, t, y + 1)
  }

  /** Number of tiles equal to `t` anywhere in `g`. */
  function CountTile(g: Grid, t: int): nat {
    CountFrom(g, t, 0)
  }

  lemma {:induction false} CellsInRowCount(row: seq<int>, y: int, t: int, x: nat)
    requires x <= |row|
    ensures |CellsInRow(row, y, t, x)| == CountInRow(row, t, x)
    decreases |row| - x
  {
    if x < |row| {
      CellsInRowCount(row, y, t, x + 1);
    }
  }

  lemma {:induction false} CellsFromCount(g: Grid, t: int, y: nat)
    requires y <= |g|
    ensures |CellsFrom(g, t, y)| == CountFrom(g, t, y)
    decreases |g| - y
  {
    if y < |g| {
      CellsInRowCount(g[y], y, t, 0);
      CellsFromCount(g, t, y + 1);
    }
  }

  /** The list built by the nested scan has exactly as many entries as the counter counts. */
  lemma CellsOfCount(g: Grid, t: int)
    ensures |CellsOf(g, t)| == CountTile(g, t)
  {
    CellsFromCount(g, t, 0);
  }

  // ---------------------------------------------------------------------------
  // The Maze record
  // ---------------------------------------------------------------------------

  /** A level: its (never mutated) grid and the stars still to collect. */
  datatype Maze = Maze(data: Grid, stars: seq<Point>)

  /** The constructor: the star list starts as every STAR cell, in row-major order. */
  function NewMaze(data: Grid): (m: Maze)
    ensures m.data == data
    ensures forall p :: p in m.stars <==> HasTile(data, p, Star)
    ensures RowMajorSorted(m.stars) && NoDuplicates(m.stars)
  {
    var stars := CellsOf(data, Star);
    SortedHasNoDuplicates(stars);
    Maze(data, stars)
  }

  /**
   * The first START cell in row-major order, or the fallback (1, 1) when the
   * grid has none.
   */
  function StartPosition(g: Grid): (p: Point)
    ensures (exists q :: HasTile(g, q, Start)) ==>
              && HasTile(g, p, Start)
              && forall q :: HasTile(g, q, Start) ==> q == p || RowMajorBefore(p, q)
    ensures (forall q :: !HasTile(g, q, Start)) ==> p == Point(1, 1)
  {
    var starts := CellsOf(g, Start);
    if |starts| > 0 then
      assert forall q :: HasTile(g, q, Start) ==> q in starts;
      starts[0]
    else
      Point(1, 1)
  }

  // ---------------------------------------------------------------------------
  // Lookups
  // ---------------------------------------------------------------------------

  /** Inside `[0, len(row 0)) x [0, height)`: the range test of the source. */
  predicate InBounds(g: Grid, x: int, y: int) {
    0 <= x && |g| > 0 && x < |g[0]| && 0 <= y < |g|
  }

  /**
   * What the source's indexing needs: a first row once `0 <= x` lets the range
   * test read it, and a long enough row `y` when the cell is in range.
   */
  predicate Lookupable(g: Grid, x: int, y: int) {
    (0 <= x ==> |g| > 0) && (InBounds(g, x, y) ==> x < |g[y]|)
  }

  /** The tile codes the player may enter. */
  predicate Enterable(t: int) {
    t == Path || t == Goal || t == Star
  }

  function GetTileType(g: Grid, x: int, y: int): (t: int)
    requires Lookupable(g, x, y)
    ensures InBounds(g, x, y) ==> t == g[y][x]
    ensures !InBounds(g, x, y) ==> t == Wall
  {
    if InBounds(g, x, y) then g[y][x] else Wall
  }

  /** Passability: in range, and the tile is PATH, GOAL or STAR. */
  function CanMoveTo(g: Grid, x: int, y: int): (ok: bool)
    requires Lookupable(g, x, y)
    ensures ok ==> InBounds(g, x, y) && g[y][x] != Wall && g[y][x] != Start
  {
    if !InBounds(g, x, y) then false
    else Enterable(g[y][x])
  }

  /**
   * Passability agrees with the tile lookup: a cell can be entered iff the tile
   * reported for it is enterable (out-of-range cells read as WALL).
   */
  lemma CanMoveToIffEnterableTile(g: Grid, x: int, y: int)
    requires Lookupable(g, x, y)
    ensures CanMoveTo(g, x, y) <==> Enterable(GetTileType(g, x, y))
    ensures CanMoveTo(g, x, y) <==> InBounds(g, x, y) && (g[y][x] == Path || g[y][x] == Goal || g[y][x] == Star)
  {
  }

  function IsGoalPosition(g: Grid, x: int, y: int): (b: bool)
    requires Lookupable(g, x, y)
    ensures b <==> InBounds(g, x, y) && g[y][x] == Goal
  {
    GetTileType(g, x, y) == Goal
  }

  // ---------------------------------------------------------------------------
  // Stars
  // ---------------------------------------------------------------------------

  /** Position of the first occurrence of `p` in `s`. */
  function IndexOf(s: seq<Point>, p: Point): (i: nat)
    requires p in s
    ensures i < |s| && s[i] == p && p !in s[..i]
  {
    if s[0] == p then 0
    else
      var j := IndexOf(s[1..], p);
      assert s[..j + 1] == [s[0]] + s[1..][..j];
      j + 1
  }

  /**
   * Python's `list.remove`: drops the first occurrence of `p`, keeping the
   * order of the rest. The source only calls it after a membership test, so
   * the absent case (where Python raises) never arises; here it is a no-op.
   */
  function RemoveFirst(s: seq<Point>, p: Point): (r: seq<Point>)
    ensures p !in s ==> r == s
    ensures p in s ==> r == s[..IndexOf(s, p)] + s[IndexOf(s, p) + 1..]
  {
    if |s| == 0 then s
    else if s[0] == p then s[1..]
    else
      assert s == [s[0]] + s[1..];
      IndexOfPastHead(s, p);
      [s[0]] + RemoveFirst(s[1..], p)
  }

  /** Past a head that differs from `p`, the first occurrence is one further on, and the slices around it shift by one. */
  lemma IndexOfPastHead(s: seq<Point>, p: Point)
    requires |s| > 0 && s[0] != p
    ensures p in s[1..] ==>
      && IndexOf(s, p) == IndexOf(s[1..], p) + 1
      && s[..IndexOf(s, p)] == [s[0]] + s[1..][..IndexOf(s[1..], p)]
      && s[IndexOf(s, p) + 1..] == s[1..][IndexOf(s[1..], p) + 1..]
  {
  }

  /** Removing the first occurrence takes exactly one copy of `p` out of the multiset. */
  lemma RemoveFirstMultiset(s: seq<Point>, p: Point)
    ensures multiset(RemoveFirst(s, p)) == multiset(s) - multiset{p}
  {
    if p in s {
      var i := IndexOf(s, p);
      assert s == s[..i] + [p] + s[i + 1..];
      calc {
        multiset(s);
        multiset(s[..i]) + multiset{p} + multiset(s[i + 1..]);
      }
    } else {
      assert multiset(s)[p] == 0;
    }
  }

  /** `has_star_at`: whether (x, y) is still listed. */
  predicate HasStarAt(m: Maze, x: int, y: int) {
    Point(x, y) in m.stars
  }

  /** What `collect_star` returns, and the maze it leaves behind. */
  datatype Collection = Collection(found: bool, maze: Maze)

  /**
   * One-shot star collection: succeeds iff a star is listed at (x, y), and
   * then removes exactly that entry; the grid is never changed.
   */
  function CollectStar(m: Maze, x: int, y: int): (r: Collection)
    ensures r.found <==> Point(x, y) in m.stars
    ensures r.maze.data == m.data
    ensures !r.found ==> r.maze == m
    ensures r.found ==> r.maze.stars == m.stars[..IndexOf(m.stars, Point(x, y))] + m.stars[IndexOf(m.stars, Point(x, y)) + 1..]
    ensures multiset(r.maze.stars) == multiset(m.stars) - multiset{Point(x, y)}
    ensures |r.maze.stars| == |m.stars| - (if r.found then 1 else 0)
  {
    var p := Point(x, y);
    RemoveFirstMultiset(m.stars, p);
    if p in m.stars then
      var rest := RemoveFirst(m.stars, p);
      assert |multiset(rest)| == |multiset(m.stars)| - 1;
      Collection(true, m.(stars := rest))
    else
      Collection(false, m)
  }

  /** `get_stars_count`: the stars still to collect; none iff no cell has a star left. */
  function StarsCount(m: Maze): (c: nat)
    ensures c == 0 <==> forall x, y :: !HasStarAt(m, x, y)
  {
    assert |m.stars| > 0 ==> HasStarAt(m, m.stars[0].x, m.stars[0].y);
    |m.stars|
  }

  /** `get_total_stars_count`: the STAR tiles of the grid, collected or not. */
  function TotalStarsCount(m: Maze): (c: nat)
    ensures c == |CellsOf(m.data, Star)|
  {
    CellsOfCount(m.data, Star);
    CountTile(m.data, Star)
  }

  function Width(m: Maze): nat {
    if |m.data| > 0 then |m.data[0]| else 0
  }

  function Height(m: Maze): nat {
    |m.data|
  }

  /**
   * The reported size bounds the playing field: every cell the player can
   * enter, and every cell whose tile reads as something other than WALL, lies
   * in `[0, width) x [0, height)`; an empty grid has width 0.
   */
  lemma SizeBoundsPassableCells(m: Maze, x: int, y: int)
    requires Lookupable(m.data, x, y)
    ensures CanMoveTo(m.data, x, y) ==> 0 <= x < Width(m) && 0 <= y < Height(m)
    ensures GetTileType(m.data, x, y) != Wall ==> 0 <= x < Width(m) && 0 <= y < Height(m)
    ensures 0 <= x < Width(m) && 0 <= y < Height(m) ==> GetTileType(m.data, x, y) == m.data[y][x]
    ensures |m.data| == 0 ==> Width(m) == 0
  {
  }

  /** A maze without rows reports width and height 0; a negative x on it reads as WALL and cannot be entered. */
  lemma EmptyMazeHasNoSize(m: Maze, x: int)
    requires |m.data| == 0
    ensures Width(m) == 0 && Height(m) == 0
    ensures x < 0 ==> Lookupable(m.data, x, 0) && !CanMoveTo(m.data, x, 0) && GetTileType(m.data, x, 0) == Wall
  {
  }

  /** A fresh maze has a star at exactly the STAR cells of its grid. */
  lemma FreshStarsAreStarTiles(data: Grid, x: int, y: int)
    ensures HasStarAt(NewMaze(data), x, y) <==> HasTile(data, Point(x, y), Star)
  {
  }

  /**
   * Collecting the same star twice: the first call succeeds, the star is then
   * gone, and the second call fails and changes nothing. The duplicate-free
   * star list is kept duplicate-free.
   */
  lemma CollectIsOneShot(m: Maze, x: int, y: int)
    requires NoDuplicates(m.stars)
    requires HasStarAt(m, x, y)
    ensures var first := CollectStar(m, x, y);
      && first.found
      && !HasStarAt(first.maze, x, y)
      && NoDuplicates(first.maze.stars)
      && CollectStar(first.maze, x, y) == Collection(false, first.maze)
  {
    var p := Point(x, y);
    var first := CollectStar(m, x, y);
    var s := m.stars;
    var r := first.maze.stars;
    MultisetCountOfDistinct(s, p);
    assert multiset(r)[p] == 0;
    RemovalKeepsDistinct(s, p);
  }

  lemma {:induction false} MultisetCountOfDistinct(s: seq<Point>, p: Point)
    requires NoDuplicates(s)
    ensures multiset(s)[p] <= 1
    decreases |s|
  {
    if |s| > 0 {
      assert s == [s[0]] + s[1..];
      MultisetCountOfDistinct(s[1..], p);
      if s[0] == p {
        assert p !in s[1..];
      }
    }
  }

  lemma RemovalKeepsDistinct(s: seq<Point>, p: Point)
    requires NoDuplicates(s)
    ensures NoDuplicates(RemoveFirst(s, p))
  {
    var r := RemoveFirst(s, p);
    if p in s {
      var i := IndexOf(s, p);
      forall a, b | 0 <= a < b < |r|
        ensures r[a] != r[b]
      {
        var a' := if a < i then a else a + 1;
        var b' := if b < i then b else b + 1;
        assert r[a] == s[a'] && r[b] == s[b'];
      }
    }
  }

  /**
   * Star counts: at construction the remaining and the total count agree; a
   * successful collection lowers the remaining count by exactly one and leaves
   * the total, which is computed from the grid, unchanged.
   */
  lemma StarCountsTrack(data: Grid, m: Maze, x: int, y: int)
    ensures StarsCount(NewMaze(data)) == TotalStarsCount(NewMaze(data))
    ensures var r := CollectStar(m, x, y);
      && TotalStarsCount(r.maze) == TotalStarsCount(m)
      && (r.found ==> StarsCount(r.maze) == StarsCount(m) - 1)
      && (!r.found ==> StarsCount(r.maze) == StarsCount(m))
  {
    CellsOfCount(data, Star);
  }
}

=== FILE: PlayerModel.dfy ===
/**
 * The player token: a grid position and the time of its last move. Moves are
 * rate limited and must land on an enterable tile. The clock reading is the
 * parameter `now` (the source reads `time.time()` once in `can_move` and once
 * more on success; both readings are taken to be `now`).
 */
module PlayerModel {
  import opened Common
  import opened Config
  import opened MazeModel

  datatype Player = Player(x: int, y: int, lastMoveTime: real)

  /** A new player at (x, y) that has never moved. */
  function NewPlayer(x: int, y: int): (p: Player)
    ensures GetPosition(p) == Point(x, y)
    ensures p.lastMoveTime == 0.0
  {
    Player(x, y, 0.0)
  }

  function SetPosition(p: Player, x: int, y: int): (q: Player)
    ensures q.lastMoveTime == p.lastMoveTime
  {
    p.(x := x, y := y)
  }

  function GetPosition(p: Player): Point {
    Point(p.x, p.y)
  }

  /** `set_position` then `get_position` gives back the coordinates set. */
  lemma SetThenGet(p: Player, x: int, y: int)
    ensures GetPosition(SetPosition(p, x, y)) == Point(x, y)
    ensures SetPosition(p, GetPosition(p).x, GetPosition(p).y) == p
  {
  }

  /** The rate limit: strictly more than `moveDelay` seconds since the last move. */
  predicate CanMove(p: Player, now: real, moveDelay: real) {
    now - p.lastMoveTime > moveDelay
  }

  /**
   * The rate limit only ever opens with time: once a move is allowed it stays
   * allowed at every later instant, and a player that has never moved may move
   * as soon as more than `moveDelay` seconds past 0 have elapsed.
   */
  lemma RateLimitOpensOverTime(p: Player, now: real, later: real, moveDelay: real)
    requires now <= later
    ensures CanMove(p, now, moveDelay) ==> CanMove(p, later, moveDelay)
    ensures CanMove(NewPlayer(p.x, p.y), now, moveDelay) <==> now > moveDelay
  {
  }

  /** What `try_move` returns, and the player it leaves behind. */
  datatype MoveResult = MoveResult(moved: bool, player: Player)

  /**
   * One attempted step by (dx, dy). It fails, changing nothing, when the rate
   * limit forbids a move or the target cell cannot be entered; otherwise the
   * player moves there and the move time becomes `now`. The maze is only
   * consulted once the rate limit allows a move.
   */
  function TryMove(p: Player, dx: int, dy: int, g: Grid, now: real, moveDelay: real): (r: MoveResult)
    requires CanMove(p, now, moveDelay) ==> Lookupable(g, p.x + dx, p.y + dy)
    ensures r.moved <==> CanMove(p, now, moveDelay) && CanMoveTo(g, p.x + dx, p.y + dy)
    ensures !r.moved ==> r.player == p
    ensures r.moved ==> r.player == Player(p.x + dx, p.y + dy, now)
  {
    if !CanMove(p, now, moveDelay) then MoveResult(false, p)
    else
      var nx := p.x + dx;
      var ny := p.y + dy;
      if CanMoveTo(g, nx, ny) then MoveResult(true, Player(nx, ny, now))
      else MoveResult(false, p)
  }

  /** After a successful move the player stands inside the grid on PATH, GOAL or STAR. */
  lemma LandsOnEnterableTile(p: Player, dx: int, dy: int, g: Grid, now: real, moveDelay: real)
    requires CanMove(p, now, moveDelay) ==> Lookupable(g, p.x + dx, p.y + dy)
    requires TryMove(p, dx, dy, g, now, moveDelay).moved
    ensures var q := TryMove(p, dx, dy, g, now, moveDelay).player;
      InBounds(g, q.x, q.y) && Enterable(g[q.y][q.x])
  {
  }

  /** A second attempt at the same instant is always refused (the delay is never negative). */
  lemma NoTwoMovesAtOnce(p: Player, dx: int, dy: int, ex: int, ey: int, g: Grid, now: real, moveDelay: real)
    requires moveDelay >= 0.0
    requires CanMove(p, now, moveDelay) ==> Lookupable(g, p.x + dx, p.y + dy)
    requires TryMove(p, dx, dy, g, now, moveDelay).moved
    ensures var q := TryMove(p, dx, dy, g, now, moveDelay).player;
      !TryMove(q, ex, ey, g, now, moveDelay).moved
  {
  }

  /**
   * With the configured 0.2 s delay, moves are spaced: after a successful move
   * at `now`, every attempt up to and including `now + 0.2` is refused.
   */
  lemma MovesAreSpacedByConfiguredDelay(p: Player, dx: int, dy: int, ex: int, ey: int, g: Grid, now: real, later: real)
    requires CanMove(p, now, MoveDelay) ==> Lookupable(g, p.x + dx, p.y + dy)
    requires TryMove(p, dx, dy, g, now, MoveDelay).moved
    requires later <= now + MoveDelay
    ensures var q := TryMove(p, dx, dy, g, now, MoveDelay).player;
      !TryMove(q, ex, ey, g, later, MoveDelay).moved
  {
  }

  function IsAtGoal(p: Player, g: Grid): (b: bool)
    requires Lookupable(g, p.x, p.y)
    ensures b <==> InBounds(g, p.x, p.y) && g[p.y][p.x] == Goal
  {
    IsGoalPosition(g, p.x, p.y)
  }

  /**
   * Collects the star, if any, at exactly the player's current cell: that
   * entry, and only it, leaves the list; without one nothing changes.
   */
  function CollectStarAtPosition(p: Player, m: Maze): (r: Collection)
    ensures r.found <==> GetPosition(p) in m.stars
    ensures r.maze.data == m.data
    ensures !r.found ==> r.maze == m
    ensures r.found ==> r.maze.stars == m.stars[..IndexOf(m.stars, GetPosition(p))] + m.stars[IndexOf(m.stars, GetPosition(p)) + 1..]
    ensures multiset(r.maze.stars) == multiset(m.stars) - multiset{GetPosition(p)}
    ensures |r.maze.stars| == |m.stars| - (if r.found then 1 else 0)
  {
    CollectStar(m, p.x, p.y)
  }

  /**
   * Standing still on a star collects it once: the first call succeeds, the
   * player's cell then has no star, and a second call fails and changes nothing.
   */
  lemma CollectAtPositionIsOneShot(p: Player, m: Maze)
    requires NoDuplicates(m.stars)
    requires HasStarAt(m, p.x, p.y)
    ensures var first := CollectStarAtPosition(p, m);
      && first.found
      && !HasStarAt(first.maze, p.x, p.y)
      && CollectStarAtPosition(p, first.maze) == Collection(false, first.maze)
  {
    CollectIsOneShot(m, p.x, p.y);
  }
}

=== FILE: ScriptGame.dfy ===
/**
 * The stand-alone script version of the game, which keeps its state in
 * module-level globals and writes tile codes as literals. Each function here
 * follows the script's own code, and a lemma connects it to the packaged
 * version where the two overlap.
 */
module ScriptGame {
  import opened Common
  import opened Config
  import opened MazeModel
  import HandController
  import GameStateModel

  // ---------------------------------------------------------------------------
  // find_start
  // ---------------------------------------------------------------------------

  /** The first x' >= x with `row[x'] == 2`. */
  function SearchRow(row: seq<int>, y: int, x: nat): (r: Option<Point>)
    requires x <= |row|
    ensures r.Some? ==> r.value.y == y && x <= r.value.x < |row| && row[r.value.x] == 2
    ensures r.Some? ==> forall x' :: x <= x' < r.value.x ==> row[x'] != 2
    ensures r.None? ==> forall x' :: x <= x' < |row| ==> row[x'] != 2
    decreases |row| - x
  {
    if x == |row| then None
    else if row[x] == 2 then Some(Point(x, y))
    else SearchRow(row, y, x + 1)
  }

  /** The first cell holding 2 in rows `y..`, scanning row by row. */
  function SearchFrom(g: Grid, y: nat): (r: Option<Point>)
    requires y <= |g|
    ensures r.Some? ==> HasTile(g, r.value, 2) && y <= r.value.y
    ensures r.Some? ==> forall q :: HasTile(g, q, 2) && y <= q.y ==> q == r.value || RowMajorBefore(r.value, q)
    ensures r.None? ==> forall q :: HasTile(g, q, 2) ==> q.y < y
    decreases |g| - y
  {
    if y == |g| then None
    else
      match SearchRow(g[y], y, 0)
      case Some(p) => Some(p)
      case None => SearchFrom(g, y + 1)
  }

  /**
   * `find_start`: returns on the first 2 of a row-major scan, else (1, 1).
   * The result is a cell holding 2 that no other such cell precedes.
   */
  function FindStart(g: Grid): (p: Point)
    ensures (exists c :: HasTile(g, c, 2)) ==>
              && HasTile(g, p, 2)
              && forall q :: HasTile(g, q, 2) ==> q == p || RowMajorBefore(p, q)
    ensures (forall c :: !HasTile(g, c, 2)) ==> p == Point(1, 1)
  {
    match SearchFrom(g, 0)
    case Some(p) => p
    case None => Point(1, 1)
  }

  /** The script's early-return scan and the packaged start lookup agree on every grid. */
  lemma FindStartAgrees(g: Grid)
    ensures FindStart(g) == StartPosition(g)
  {
    var p := FindStart(g);
    var q := StartPosition(g);
    if exists c :: HasTile(g, c, Start) {
      assert SearchFrom(g, 0).Some?;
      assert p == q || RowMajorBefore(p, q);
      assert q == p || RowMajorBefore(q, p);
    }
  }

  // ---------------------------------------------------------------------------
  // count_stars
  // ---------------------------------------------------------------------------

  /** `count_stars`: the nested loops counting tiles equal to 4. */
  method CountStars(g: Grid) returns (count: nat)
    ensures count == CountTile(g, Star)
    ensures count == |CellsOf(g, Star)|
  {
    count := 0;
    var y := 0;
    while y < |g|
      invariant 0 <= y <= |g|
      invariant count + CountFrom(g, Star, y) == CountTile(g, Star)
    {
      var row := g[y];
      var x := 0;
      while x < |row|
        invariant 0 <= x <= |row|
        invariant count + CountInRow(row, Star, x) + CountFrom(g, Star, y + 1) == CountTile(g, Star)
      {
        if row[x] == 4 {
          count := count + 1;
        }
        x := x + 1;
      }
      y := y + 1;
    }
    CellsOfCount(g, Star);
  }

  // ---------------------------------------------------------------------------
  // handle_input and can_move
  // ---------------------------------------------------------------------------

  /** The arrow keys currently held down. */
  datatype Keys = Keys(left: bool, right: bool, up: bool, down: bool)

  /** `handle_input`: LEFT beats RIGHT and UP beats DOWN; the two axes are independent. */
  function HandleInput(k: Keys): (d: HandController.Direction)
    ensures d.dx == -1 <==> k.left
    ensures d.dx == 1 <==> !k.left && k.right
    ensures d.dx == 0 <==> !k.left && !k.right
    ensures d.dy == -1 <==> k.up
    ensures d.dy == 1 <==> !k.up && k.down
    ensures d.dy == 0 <==> !k.up && !k.down
  {
    HandController.Direction(if k.left then -1 else if k.right then 1 else 0,
                             if k.up then -1 else if k.down then 1 else 0)
  }

  /** The keyboard gives a one-axis step exactly when keys of only one axis are held. */
  lemma KeyboardCardinalIffOneAxis(k: Keys)
    ensures HandController.IsCardinal(HandleInput(k)) <==> !((k.left || k.right) && (k.up || k.down))
  {
  }

  /** Unlike the gesture estimator, the keyboard mapping can produce a diagonal step. */
  lemma KeyboardCanGoDiagonal()
    ensures HandleInput(Keys(true, false, true, false)) == HandController.Direction(-1, -1)
    ensures !HandController.IsCardinal(HandleInput(Keys(true, false, true, false)))
  {
  }

  /** `can_move`: in range and the tile is one of 1, 3, 4, the PATH, GOAL and STAR codes. */
  function CanMove(g: Grid, x: int, y: int): (ok: bool)
    requires Lookupable(g, x, y)
    ensures ok <==> InBounds(g, x, y) && Enterable(g[y][x])
  {
    0 <= x < |g[0]| && 0 <= y < |g| && g[y][x] in [1, 3, 4]
  }

  /** The script's passability test agrees with the packaged `can_move_to`. */
  lemma CanMoveAgrees(g: Grid, x: int, y: int)
    requires Lookupable(g, x, y)
    ensures CanMove(g, x, y) == CanMoveTo(g, x, y)
  {
  }

  // ---------------------------------------------------------------------------
  // The global score state, collect_star and next_maze
  // ---------------------------------------------------------------------------

  /** The script's module-level globals that the modelled functions touch. */
  datatype ScriptState = ScriptState(score: int, starsCollected: int, totalStars: int, currentTheme: string)

  /** What `collect_star` mutates: the globals and the star list passed in. */
  datatype Collected = Collected(state: ScriptState, stars: seq<Point>)

  /**
   * `collect_star`: when (x, y) is listed, the entry is removed, one star is
   * counted and 10 points are scored; otherwise nothing changes.
   */
  function CollectStarAt(st: ScriptState, x: int, y: int, stars: seq<Point>): (r: Collected)
    ensures Point(x, y) in stars ==>
              && r.state == st.(score := st.score + 10, starsCollected := st.starsCollected + 1)
              && |r.stars| == |stars| - 1
              && multiset(r.stars) == multiset(stars) - multiset{Point(x, y)}
    ensures Point(x, y) !in stars ==> r == Collected(st, stars)
  {
    if Point(x, y) in stars then
      MazeModel.RemoveFirstMultiset(stars, Point(x, y));
      var rest := MazeModel.RemoveFirst(stars, Point(x, y));
      assert |multiset(rest)| == |multiset(stars)| - 1;
      Collected(st.(score := st.score + 10, starsCollected := st.starsCollected + 1), rest)
    else
      Collected(st, stars)
  }

  /**
   * The script's global star collection does what the packaged game does in
   * two steps: the maze drops the star and the state record scores it.
   */
  lemma CollectStarAgrees(st: ScriptState, gs: GameStateModel.GameState, m: Maze, x: int, y: int)
    requires gs.score == st.score && gs.starsCollected == st.starsCollected
    ensures var r := CollectStarAt(st, x, y, m.stars);
      var c := MazeModel.CollectStar(m, x, y);
      && r.stars == c.maze.stars
      && (c.found ==> r.state.score == GameStateModel.CollectStar(gs).score
                      && r.state.starsCollected == GameStateModel.CollectStar(gs).starsCollected)
      && (!c.found ==> r.state == st)
  {
  }

  /** The theme of level `i`: the theme table's keys taken in turn. */
  function ThemeForLevel(i: nat): (name: string)
    ensures name in ThemeNames
    ensures name == ThemeNames[i % 4]
  {
    ThemeNames[i % |ThemeNames|]
  }

  /** The themes repeat every four levels, and four consecutive levels use all four. */
  lemma ThemesRotate(i: nat)
    ensures ThemeForLevel(i + 4) == ThemeForLevel(i)
    ensures {ThemeForLevel(i), ThemeForLevel(i + 1), ThemeForLevel(i + 2), ThemeForLevel(i + 3)} == set n | n in ThemeNames
  {
    var k := i % 4;
    assert (i + 4) % 4 == k;
    assert (i + 1) % 4 == (k + 1) % 4 && (i + 2) % 4 == (k + 2) % 4 && (i + 3) % 4 == (k + 3) % 4;
  }

  /** A level freshly entered by `next_maze`. */
  datatype Level = Level(index: nat, grid: Grid, start: Point, stars: seq<Point>)

  /** What `next_maze` returns, with the globals it leaves. */
  datatype Advance = Advance(level: Option<Level>, state: ScriptState)

  /**
   * `next_maze`: when another maze follows, moves to it with its start cell and
   * all of its star cells, switches to its theme and resets the star
   * counters; after the last maze it reports no level and changes nothing.
   */
  function NextMaze(st: ScriptState, mazes: seq<Grid>, idx: nat): (r: Advance)
    ensures idx + 1 < |mazes| ==>
              && r.level.Some?
              && r.level.value.index == idx + 1
              && r.level.value.grid == mazes[idx + 1]
              && r.level.value.start == StartPosition(mazes[idx + 1])
              && (forall p :: p in r.level.value.stars <==> HasTile(mazes[idx + 1], p, Star))
              && RowMajorSorted(r.level.value.stars)
              && r.state == ScriptState(st.score, 0, |r.level.value.stars|, ThemeForLevel(idx + 1))
    ensures idx + 1 >= |mazes| ==> r == Advance(None, st)
  {
    var next := idx + 1;
    if next < |mazes| then
      var g := mazes[next];
      CellsOfCount(g, Star);
      FindStartAgrees(g);
      var theme := ThemeForLevel(next);
      Advance(Some(Level(next, g, FindStart(g), CellsOf(g, Star))),
              ScriptState(st.score, 0, CountTile(g, Star), theme))
    else
      Advance(None, st)
  }

  /**
   * The goal rule of the main loop: standing on tile 3 scores 50 points and
   * then advances with `next_maze`; any other tile changes nothing. The
   * script indexes the grid directly, so the player's cell must exist.
   */
  function GoalStep(st: ScriptState, g: Grid, px: int, py: int, mazes: seq<Grid>, idx: nat): (r: Advance)
    requires IsCell(g, Point(px, py))
    ensures g[py][px] != 3 ==> r == Advance(None, st)
    ensures g[py][px] == 3 ==> r.state.score == st.score + 50
    ensures g[py][px] == 3 && idx + 1 < |mazes| ==>
              && r.level.Some?
              && r.level.value.index == idx + 1
              && r.level.value.grid == mazes[idx + 1]
              && r.level.value.start == StartPosition(mazes[idx + 1])
              && r.level.value.stars == CellsOf(mazes[idx + 1], Star)
              && r.state == ScriptState(st.score + 50, 0, CountTile(mazes[idx + 1], Star), ThemeForLevel(idx + 1))
    ensures g[py][px] == 3 && idx + 1 >= |mazes| ==> r == Advance(None, st.(score := st.score + 50))
  {
    if g[py][px] == 3 then NextMaze(st.(score := st.score + 50), mazes, idx)
    else Advance(None, st)
  }

  /**
   * As written, nothing ends the main loop after the last maze: the player is
   * still on the goal tile in the next frame, so the 50-point bonus is paid
   * again on every pass.
   */
  lemma GoalBonusRepeatsAfterLastLevel(st: ScriptState, g: Grid, px: int, py: int, mazes: seq<Grid>, idx: nat)
    requires IsCell(g, Point(px, py)) && g[py][px] == 3
    requires idx + 1 >= |mazes|
    ensures GoalStep(st, g, px, py, mazes, idx).level.None?
    ensures GoalStep(GoalStep(st, g, px, py, mazes, idx).state, g, px, py, mazes, idx).state.score == st.score + 100
  {
  }

  /** The script's globals together with whether the game has been won. */
  datatype Session = Session(state: ScriptState, over: bool)

  /** A goal step together with the session it leaves. */
  datatype SessionStep = SessionStep(level: Option<Level>, session: Session)

  /**
   * The goal rule as the packaged game has it: reaching the goal of the last
   * maze ends the session, and a finished session scores nothing more.
   */
  function FinishingGoalStep(ss: Session, g: Grid, px: int, py: int, mazes: seq<Grid>, idx: nat): (r: SessionStep)
    requires IsCell(g, Point(px, py))
    ensures ss.over ==> r == SessionStep(None, ss)
    ensures !ss.over && g[py][px] == 3 ==> r.session.state.score == ss.state.score + 50
    ensures !ss.over && g[py][px] == 3 ==> (r.session.over <==> idx + 1 >= |mazes|)
    ensures !ss.over && g[py][px] != 3 ==> r == SessionStep(None, ss)
  {
    if ss.over then SessionStep(None, ss)
    else
      var a := GoalStep(ss.state, g, px, py, mazes, idx);
      SessionStep(a.level, Session(a.state, g[py][px] == 3 && a.level.None?))
  }

  /** With the session ended at the last goal, the completion bonus is paid exactly once. */
  lemma FinishingGoalScoresOnce(ss: Session, g: Grid, px: int, py: int, mazes: seq<Grid>, idx: nat, more: nat)
    requires !ss.over
    requires IsCell(g, Point(px, py)) && g[py][px] == 3
    requires idx + 1 >= |mazes|
    ensures RepeatGoal(FinishingGoalStep(ss, g, px, py, mazes, idx).session, g, px, py, mazes, idx, more).state.score
            == ss.state.score + 50
  {
    RepeatFinished(FinishingGoalStep(ss, g, px, py, mazes, idx).session, g, px, py, mazes, idx, more);
  }

  /** `k` further frames spent on the same cell. */
  function RepeatGoal(ss: Session, g: Grid, px: int, py: int, mazes: seq<Grid>, idx: nat, k: nat): Session
    requires IsCell(g, Point(px, py))
    decreases k
  {
    if k == 0 then ss else RepeatGoal(FinishingGoalStep(ss, g, px, py, mazes, idx).session, g, px, py, mazes, idx, k - 1)
  }

  lemma {:induction false} RepeatFinished(ss: Session, g: Grid, px: int, py: int, mazes: seq<Grid>, idx: nat, k: nat)
    requires ss.over
    requires IsCell(g, Point(px, py))
    ensures RepeatGoal(ss, g, px, py, mazes, idx, k) == ss
    decreases k
  {
    if k > 0 {
      RepeatFinished(ss, g, px, py, mazes, idx, k - 1);
    }
  }
}
